=== FILE: README.md ===
# Order and payment core of the fullstack test backend, in Dafny

This project models the order-and-payment flow of the NestJS backend: creating an
order and paying for it by card.

- **Creating an order** (`CreateOrderUseCase.execute`). The request is validated and
  checked against an existing order id. Its products are read and their stock
  pre-checked. The lines are priced with 19 % IVA. Then one all-or-nothing unit
  upserts the customer, creates a PENDING order and a PENDING transaction, and
  reserves the stock.
- **Checkout** (`CheckoutUseCase.execute`). The transaction and its order are read,
  and an order that is already processed is refused. The encoded card is
  validated and normalised. The payment port is called once. In one unit the
  order becomes PAID and the transaction SUCCESS (for APPROVED), or both become
  CANCELLED.
- **Card validation**: holder name, number, expiry date and CVV checks, and the
  normalised card sent to the payment port.
- **The Prisma repositories** for products, customers and orders, over a `Store`
  of tables. Products and orders are maps keyed by id. Customers and
  transactions are sequences in row order.
- **`Result`** with `bind`, the error constructors of the five contexts, and the
  domain records with their JSON projections.

Every collaborator of a use case is a field of a `Ports` record of total
functions.
- A call that reads answers an `Outcome`: `Returned(result)`, or `Thrown` for a
  JavaScript exception.
- A call that writes also gives the table it leaves behind.
- A run of a use case is an `Attempt`: its reply, the state it leaves, and the
  log of port calls it made in order. This lets the lemmas say "the payment
  port is not called" or "the reservation gets one request per line".
- `OrderRepo.RunInTransaction` is the database transaction. It commits the
  unit's state when the unit returns and restores the state before it when the
  unit throws. `OrderRepo.Commit` is that last step on its own, for a unit
  already run from the state before it. Checkout's recording stage uses it.
- The use cases are proved once for any ports. For order creation they are
  proved again over `StorePorts`, the Prisma repositories over the store.
  Exceptions and generated keys there are explicit inputs (`Faults`).

Money is exact (`real`). `Math.round` is written out as `floor(x + 0.5)`. The
current month and the card decoder are parameters. The checkout flow
`CheckoutUseCase.ExecuteWith` takes the card check's verdict as an input, so its
lemmas hold whatever the card check answers. The check reads the clock
(`new Date()`) but is pure once the current month is given, which the `Clock`
parameter does. So it makes no difference that the model computes it before
the lookup and not after. Then
`CheckoutUseCase.Execute` plugs in `CardValidator.ValidateCreditCard`.

Behaviour worth knowing, all proved below:

- `findByIdIfIsProccesed` answers for any stored order, whatever its status, so
  "processed" means "exists".
- The stock pre-check compares each line on its own. With a product repeated in
  the request it can pass while the reservation then fails.
- `findProductsById` compares counts, so an order naming the same product twice
  is refused with `ProductNotFoundError`. The single and the batch lookup agree
  on one id.
- An order id of `""` is falsy in JavaScript, so the existing-order guard does
  not run for it.
- `trim().length` counts UTF-16 code units, so a holder name of one emoji
  passes the two-character check.

## Model

| member | source | states |
|---|---|---|
| Results.MakeOk | src/contexts/shared/models/result.ts:3-12 | `ok(v)` has `isOk` true and holds `v` |
| Results.MakeErr | src/contexts/shared/models/result.ts:7-13 | `err(e)` has `isOk` false and holds `e` |
| Results.Result.Bind | src/contexts/shared/models/result.ts:15-22 | `bind(r, fn)` is `fn` applied to the value of an `Ok`, and the same `Err` for an `Err` |
| Results.BindLeftIdentity | src/contexts/shared/models/result.ts:15-20 | `bind(ok(v), f)` is `f(v)` |
| Results.BindShortCircuits | src/contexts/shared/models/result.ts:19-21 | `bind(err(e), f)` is `err(e)` and does not depend on `f` |
| Results.BindRightIdentity | src/contexts/shared/models/result.ts:15-22 | `bind(r, ok)` is `r` for every `r` |
| Errors.Make | src/contexts/order/domain/order.exception.ts:11-15 | every constructor has a fixed kind and status; a supplied message replaces the default |
| Errors.OrderNotFoundError | src/contexts/order/domain/order.exception.ts:11-15 | kind order, status 404, default 'Order Not Found' |
| Errors.OrderShouldHaveItemsError | src/contexts/order/domain/order.exception.ts:17-23 | kind order, status 400, default 'The order must have at least one item' |
| Errors.OrderAlreadyProcessedError | src/contexts/order/domain/order.exception.ts:25-31 | kind order, status 400, default 'The order already processed' |
| Errors.OrderGenericError | src/contexts/order/domain/order.exception.ts:34-40 | kind order, status 400, default 'The order has an error' |
| Errors.PaymentNotFoundError | src/contexts/order/domain/payment.exceptions.ts:11-15 | kind payment, status 404, default 'payment Not Found' |
| Errors.PaymentCreditCardError | src/contexts/order/domain/payment.exceptions.ts:19-25 | kind payment, status 402, default 'We had problems with your paymethod, try again' |
| Errors.PaymentGenericError | src/contexts/order/domain/payment.exceptions.ts:29-35 | kind payment, status 402, default 'The payment already processed' |
| Errors.ProductNotFoundError | src/contexts/inventory/domain/inventory.exceptions.ts:16-20 | kind inventory, status 404, default 'Product Not Found' |
| Errors.ProductWithoutStockError | src/contexts/inventory/domain/inventory.exceptions.ts:24-28 | kind inventory, status 400, default 'Product Without Stock' |
| Errors.ProductsWithoutStockOrNotExistError | src/contexts/inventory/domain/inventory.exceptions.ts:32-36 | kind inventory, status 404, default 'Some products do not exist or are out of stock' |
| Errors.TransactionNotFoundError | src/contexts/transactions/domain/transactionException.ts:8-12 | kind transaction, status 404, default 'Transaction Not Found' |
| Errors.TransactionAlreadyProcessedError | src/contexts/transactions/domain/transactionException.ts:14-20 | kind transaction, status 400, default 'The Transaction already processed' |
| Errors.TransactionGenericError | src/contexts/transactions/domain/transactionException.ts:23-29 | kind transaction, status 400, default 'The Transaction ' |
| Errors.CustomerNotFoundError | src/contexts/customers/domain/customer.exceptions.ts:7-11 | kind customer, status 404, default 'Customer Not Found' |
| Errors.CustomerAlreadyExistError | src/contexts/customers/domain/customer.exceptions.ts:13-17 | kind customer, status 400, default 'User Already Register' |
| Errors.CustomerAlreadyProcessedError | src/contexts/customers/domain/customer.exceptions.ts:19-23 | kind customer, status 400, default 'The order already processed' |
| Errors.MessageOverrideKeepsKindAndStatus | src/contexts/order/domain/order.exception.ts:11-40 | for all sixteen constructors a supplied message is the message, and kind and status are those of the default |
| Products.ApiJsonRoundTrip | src/contexts/inventory/domain/product.ts:24-52 | `new Product(p).toApiJson()` is `p` on all seven fields and the constructor checks nothing; every product is rebuilt from its projection |
| Products.Product.FromPrimitive | src/contexts/inventory/domain/product.ts:24-40 | `new Product(p)` projects back to `p` |
| Products.Product.ToApiJson | src/contexts/inventory/domain/product.ts:42-52 | the projection holds all seven fields: the product can be rebuilt from it |
| OrderItems.ConvertArray | src/contexts/order/domain/orderItem.ts:44-46 | one item per primitive, same length, the i-th projecting back to the i-th primitive |
| OrderItems.ApiJsonRoundTrip | src/contexts/order/domain/orderItem.ts:20-42 | the constructor and `toApiJSON` are inverse on all five fields; `lineTotal` is not recomputed |
| OrderItems.ConvertArrayAppend | src/contexts/order/domain/orderItem.ts:44-46 | converting a concatenation converts each part, so order is kept |
| OrderItems.OrderItem.FromPrimitive | src/contexts/order/domain/orderItem.ts:20-32 | `new OrderItem(p)` projects back to `p`, `lineTotal` included |
| OrderItems.OrderItem.ToApiJson | src/contexts/order/domain/orderItem.ts:34-42 | the projection holds all five fields: the item can be rebuilt from it |
| Orders.Order.FromPrimitive | src/contexts/order/domain/order.ts:31-51 | the constructor keeps every field but `customerId`; the items are converted one for one |
| Orders.CustomerIdNotKept | src/contexts/order/domain/order.ts:31-41 | primitives that differ only in `customerId` build the same order |
| Orders.ProjectionsAgreeAndHideFees | src/contexts/order/domain/order.ts:53-73 | `toJSON` is `toApiJSON` plus the two timestamps; neither changes with the fees |
| Orders.Order.ToApiJson | src/contexts/order/domain/order.ts:53-61 | the id, total, status, `paidAt` and items as stored, in a record with no fee and no timestamp field |
| Orders.Order.ToJson | src/contexts/order/domain/order.ts:63-73 | the fields of `toApiJSON()` and the two timestamps |
| Transactions.PrimitiveRoundTrip | src/contexts/transactions/domain/transaction.ts:40-60 | the constructor is a bijection with the primitive; `totalAmount` is kept as given |
| Transactions.Transaction.FromPrimitive | src/contexts/transactions/domain/transaction.ts:40-60 | `new Transaction(p)` read back as a primitive is `p` |
| Transactions.Transaction.ToPrimitive | src/contexts/transactions/domain/transaction.ts:28-38 | the entity's nine public fields, from which it can be rebuilt |
| Customers.JsonRoundTrip | src/contexts/customers/domain/customer.ts:19-50 | `toJson` agrees with the primitive on id, name, address and email, has no phone, and equals `toApiJson` |
| Customers.Customer.FromPrimitive | src/contexts/customers/domain/customer.ts:19-29 | `new Customer(p)` projects to `p`'s id, address, e-mail and name with no phone: the phone is dropped |
| Customers.Customer.ToJson | src/contexts/customers/domain/customer.ts:32-40 | the same record as `toApiJson()` |
| Customers.Customer.ToApiJson | src/contexts/customers/domain/customer.ts:42-50 | the four stored fields, from which the customer can be rebuilt, and no phone |
| Store.ToProduct | src/contexts/inventory/infraestructure/inventorySchema-prisma.ts:71-74 | a stored row becomes the product with its key, stock and price |
| InventoryRepo.Decrement | src/contexts/inventory/infraestructure/inventorySchema-prisma.ts:26-29 | one conditional decrement lowers that product by the quantity and no other |
| InventoryRepo.ReserveStock | src/contexts/inventory/infraestructure/inventorySchema-prisma.ts:18-47 | same products, only stock changes, stock stays non-negative, any error is an inventory error |
| InventoryRepo.ReserveStockSpec | src/contexts/inventory/infraestructure/inventorySchema-prisma.ts:25-38 | without a fault, the reservation succeeds exactly when every product exists and holds its total demand (repeated ids accumulate); on success each stock drops by its demand |
| InventoryRepo.ReserveStopsAtFirstShortLine | src/contexts/inventory/infraestructure/inventorySchema-prisma.ts:25-36 | the first line that cannot be decremented gives 'Insufficient stock for <id>'; earlier decrements stay and later lines are not tried |
| InventoryRepo.ReserveFaultKeepsEarlierDecrements | src/contexts/inventory/infraestructure/inventorySchema-prisma.ts:39-46 | a statement that throws gives 'Error Reserving Stock, try later' (500) and keeps the decrements made before it |
| InventoryRepo.ReserveStockSequential | src/contexts/inventory/infraestructure/inventorySchema-prisma.ts:25-36 | lines are reserved in order; a failure keeps the decrements made before it, and later lines are not tried |
| InventoryRepo.CheckAvailability | src/contexts/inventory/infraestructure/inventorySchema-prisma.ts:100-115 | `ok(true)` exactly when each line alone is covered; a short line gives `ProductsWithoutStockOrNotExistError()`; a missing product throws |
| InventoryRepo.PreCheckSoundForDistinctIds | src/contexts/inventory/infraestructure/inventorySchema-prisma.ts:100-115 | with distinct ids a passed pre-check guarantees the reservation |
| InventoryRepo.PreCheckNotCumulative | src/contexts/inventory/infraestructure/inventorySchema-prisma.ts:100-115 | with a repeated id the pre-check passes while the reservation fails |
| InventoryRepo.FoundAllIff | src/contexts/inventory/infraestructure/inventorySchema-prisma.ts:59-69 | the count comparison passes exactly when the ids are distinct and all stored |
| InventoryRepo.FindProductsById | src/contexts/inventory/infraestructure/inventorySchema-prisma.ts:56-76 | `ok` exactly when the ids are distinct and all stored, with each id's stored product (listed in request order, see Left out); otherwise the fixed `ProductNotFoundError` |
| InventoryRepo.FindProductById | src/contexts/inventory/infraestructure/inventorySchema-prisma.ts:93-98 | `ok` with the stored product exactly when the id is stored, otherwise 'Product with id <id> doesnt exist' |
| InventoryRepo.SingleAndBatchLookupAgree | src/contexts/inventory/infraestructure/inventorySchema-prisma.ts:56-98 | the single lookup and the batch lookup of one id agree |
| CustomerRepo.FirstMatch | src/contexts/customers/infraestructure/customerSchema-prisma.ts:21-28 | the first row whose id or email matches, or none when no row matches |
| CustomerRepo.FirstMatchIsFirst | src/contexts/customers/infraestructure/customerSchema-prisma.ts:21-28 | a matching row with no match before it is the one found |
| CustomerRepo.Upsert | src/contexts/customers/infraestructure/customerSchema-prisma.ts:14-53 | succeeds exactly when no statement throws: no fault, and the update does not give the matched row an id another row holds; then a matching row is overwritten with the data and no row is added, or else one row is appended under the given id; the row written is returned; a failure gives 'Error creating a client' (400) and writes nothing; ids stay unique |
| CustomerRepo.UpsertIdempotent | src/contexts/customers/infraestructure/customerSchema-prisma.ts:14-53 | upserting the same customer twice changes nothing the second time |
| CustomerRepo.GetByEmail | src/contexts/customers/infraestructure/customerSchema-prisma.ts:55-57 | always `ok(null)` |
| CustomerRepo.GetById | src/contexts/customers/infraestructure/customerSchema-prisma.ts:59-61 | always `ok(null)` |
| CustomerRepo.LookupsMissStoredCustomer | src/contexts/customers/infraestructure/customerSchema-prisma.ts:55-61 | a customer just upserted is not found by either lookup |
| OrderRepo.FirstTransactionId | src/contexts/order/infraestructure/orderSchema-prisma.ts:37 | the id of the order's first transaction row, or none when it has none |
| OrderRepo.FindByIdIfProcessed | src/contexts/order/infraestructure/orderSchema-prisma.ts:23-38 | always `ok`; a record exactly when the order is stored, with its id and first transaction id |
| OrderRepo.ProcessedMeansExists | src/contexts/order/infraestructure/orderSchema-prisma.ts:27-38 | the answer does not depend on the order's status or any other column |
| OrderRepo.StoredRow | src/contexts/order/infraestructure/orderSchema-prisma.ts:49-62 | the row written holds total, customer, status and items, and no payment instant |
| OrderRepo.CreateOrder | src/contexts/order/infraestructure/orderSchema-prisma.ts:44-85 | fails with 'Error in create the Order' (500) and writes nothing exactly on a fault or a taken key; otherwise stores the row under the payload's id |
| OrderRepo.CreateOrderIgnoresFees | src/contexts/order/infraestructure/orderSchema-prisma.ts:49-62 | `baseFee` and `taxFee` are not written |
| OrderRepo.CreateThenFind | src/contexts/order/infraestructure/orderSchema-prisma.ts:44-85 | a created order is found under the returned id, and creating it again fails |
| OrderRepo.MarkCancelled | src/contexts/order/infraestructure/orderSchema-prisma.ts:87-89 | always `ok(null)`, nothing written |
| OrderRepo.MarkCancelledKeepsStatus | src/contexts/order/infraestructure/orderSchema-prisma.ts:87-89 | a pending order stays pending |
| OrderRepo.RunInTransaction | src/contexts/order/infraestructure/orderSchema-prisma.ts:17-21 | the unit's reply and calls; its state when it returned, the state before it when it threw |
| OrderRepo.RunInTransactionNests | src/contexts/order/infraestructure/orderSchema-prisma.ts:17-21 | a transaction inside a transaction adds nothing |
| OrderRepo.RunInTransactionAllOrNothing | src/contexts/order/infraestructure/orderSchema-prisma.ts:17-21 | the state after is either the unit's or the one before |
| Pricing.JsRound | src/contexts/order/application/create-order/create-order-use-case.ts:118 | `Math.round(x)` is within half a unit of `x`, halves rounding up |
| Pricing.JsRoundIsNearest | src/contexts/order/application/create-order/create-order-use-case.ts:118 | it is the only integer in `(x - 0.5, x + 0.5]` |
| Pricing.TaxFee | src/contexts/order/application/create-order/create-order-use-case.ts:118 | the tax is 19 % of the base fee rounded to a whole amount |
| Pricing.TotalAmount | src/contexts/order/application/create-order/create-order-use-case.ts:119 | the total is base plus tax rounded to a whole number of cents |
| Pricing.TotalExactOnWholeCents | src/contexts/order/application/create-order/create-order-use-case.ts:118-119 | on a whole number of cents the total is exactly base plus tax |
| Pricing.FortyAndAHalf | src/contexts/order/application/create-order/create-order-use-case.ts:118-119 | a base of 40.5 gives tax 8 and total 48.5 |
| Pricing.FindProduct | src/contexts/order/application/create-order/create-order-use-case.ts:95 | the first product with the id (none before it has the id), or none exactly when no product has it |
| Pricing.FindProductIgnoresOrder | src/contexts/order/application/create-order/create-order-use-case.ts:95 | with distinct ids, `find` gives the same answer for any order of the same products |
| Pricing.PriceItemsIgnoresOrder | src/contexts/order/application/create-order/create-order-use-case.ts:94-105 | with distinct ids, the priced lines do not depend on the order the products were read in |
| Pricing.PriceLine | src/contexts/order/application/create-order/create-order-use-case.ts:96-104 | the line keeps product and quantity, takes the product's price, and `lineTotal = unitPrice * quantity` |
| Pricing.PriceItems | src/contexts/order/application/create-order/create-order-use-case.ts:94-105 | lines exactly when every product was read, one per request line in order, each priced from its product |
| Pricing.BaseFeeAppend | src/contexts/order/application/create-order/create-order-use-case.ts:93-98 | the base fee is additive over concatenation |
| Pricing.BaseFeeNonNegative | src/contexts/order/application/create-order/create-order-use-case.ts:93-98 | non-negative lines give a non-negative base fee; one line gives its total |
| Pricing.BaseFee | src/contexts/order/application/create-order/create-order-use-case.ts:93-105 | the running `baseFee += lineTotal` is the sum of the line totals, first line first; with no negative line it is at least each line's total |
| Pricing.LineTotalSumSnoc | src/contexts/order/application/create-order/create-order-use-case.ts:93-98 | one more line adds its total to the sum |
| CardValidator.Filter | src/contexts/order/application/checkout/checkout.ts:260 | every character kept as often as it occurs, every other one removed; all that remain pass the test |
| CardValidator.FilterAppend | src/contexts/order/application/checkout/checkout.ts:260 | filtering distributes over concatenation |
| CardValidator.FilterOfWiderFilter | src/contexts/order/application/checkout/checkout.ts:145 | filtering after a wider filter is the narrow filter alone |
| CardValidator.Digits | src/contexts/order/application/checkout/checkout.ts:260 | only digits remain, each digit as often as it occurs in the input |
| CardValidator.StripWhitespace | src/contexts/order/application/checkout/checkout.ts:145 | no whitespace remains; every other character is kept as often as it occurs |
| CardValidator.DigitsIgnoreWhitespace | src/contexts/order/application/checkout/checkout.ts:145 | removing whitespace keeps the digits |
| CardValidator.DigitsIdempotent | src/contexts/order/application/checkout/checkout.ts:260 | digits of digits are the digits |
| CardValidator.LeadingSpace | src/contexts/order/application/checkout/checkout.ts:130 | the length of the leading whitespace run |
| CardValidator.TrailingSpace | src/contexts/order/application/checkout/checkout.ts:130 | the length of the trailing whitespace run |
| CardValidator.Trim | src/contexts/order/application/checkout/checkout.ts:130 | a contiguous slice of the text, with only whitespace outside it, that neither starts nor ends with whitespace |
| CardValidator.Utf16Length | src/contexts/order/application/checkout/checkout.ts:130 | JavaScript's `length`: between one and two code units per character, one each exactly when nothing is astral |
| CardValidator.Utf16LengthAppend | src/contexts/order/application/checkout/checkout.ts:130 | the length of a concatenation is the sum of the lengths |
| CardValidator.TrimKeepsTwoIff | src/contexts/order/application/checkout/checkout.ts:130 | the trimmed text has two characters exactly when the text has two non-whitespace ones |
| CardValidator.ShortTrimIff | src/contexts/order/application/checkout/checkout.ts:130 | a trimmed text of at most one character measures two code units exactly when the text holds an astral character |
| CardValidator.IsValidCardHolder | src/contexts/order/application/checkout/checkout.ts:130-131 | the holder name is accepted exactly when it has two non-whitespace characters or one astral character, which `length` counts twice |
| CardValidator.HolderNameExamples | src/contexts/order/application/checkout/checkout.ts:130-131 | a one-emoji name passes; one letter between spaces does not |
| CardValidator.NumberValidityIgnoresWhitespace | src/contexts/order/application/checkout/checkout.ts:259-262 | normalising the number keeps its verdict |
| CardValidator.IsValidCardNumber | src/contexts/order/application/checkout/checkout.ts:259-262 | accepted exactly when the text holds 12 to 19 ASCII digits, wherever they stand |
| CardValidator.IsValidCvv | src/contexts/order/application/checkout/checkout.ts:279-282 | accepted exactly when the text holds 3 or 4 ASCII digits, wherever they stand |
| CardValidator.DigitsLength | src/contexts/order/application/checkout/checkout.ts:259-262 | the digit string is as long as the count of digits in the text |
| CardValidator.ValidityDependsOnDigitsOnly | src/contexts/order/application/checkout/checkout.ts:279-282 | number and cvv are judged by their digits alone |
| CardValidator.DecimalValue | src/contexts/order/application/checkout/checkout.ts:268 | `Number` of a digit string, below ten to its length |
| CardValidator.DecimalValueAppend | src/contexts/order/application/checkout/checkout.ts:268 | positional notation: digits written after others shift those by ten to their own length |
| CardValidator.TwoDigitValue | src/contexts/order/application/checkout/checkout.ts:268-269 | a two-digit month or year is ten times its first digit plus its second |
| CardValidator.ExpMonth | src/contexts/order/application/checkout/checkout.ts:268 | the month is the two-digit number before the slash |
| CardValidator.ExpYear | src/contexts/order/application/checkout/checkout.ts:269 | two digits are 2000 plus them, otherwise the number as written |
| CardValidator.JsDateYear | src/contexts/order/application/checkout/checkout.ts:271 | `new Date` maps years 0 to 99 to 1900 to 1999 and keeps the rest |
| CardValidator.ExpiryIsLexicographic | src/contexts/order/application/checkout/checkout.ts:264-277 | the expiry is accepted exactly when it matches the pattern, the month is 1 to 12 and (year, month) is not before now |
| CardValidator.IsValidExpDate | src/contexts/order/application/checkout/checkout.ts:264-277 | an accepted expiry matches the pattern with a month from 1 to 12; no card of an earlier year is accepted, and every well-formed card of a later year is |
| CardValidator.TwoDigitYear | src/contexts/order/application/checkout/checkout.ts:269 | a two-digit year is 2000 plus it and the date shift does not touch it |
| CardValidator.ExpiryExamples | src/contexts/order/application/checkout/checkout.ts:264-277 | at December 2025: '12/25' passes; '11/25', '13/30' and '1/30' fail |
| CardValidator.LongYearExamples | src/contexts/order/application/checkout/checkout.ts:264-277 | at December 2025: '01/2026' passes; '12/0099' is the year 1999 and fails |
| CardValidator.Split | src/contexts/order/application/checkout/checkout.ts:139 | split gives at least one part |
| CardValidator.SplitJoin | src/contexts/order/application/checkout/checkout.ts:139 | joining the parts gives the text back |
| CardValidator.SplitPartsLackSeparator | src/contexts/order/application/checkout/checkout.ts:139 | no part holds the separator |
| CardValidator.SplitAtFirst | src/contexts/order/application/checkout/checkout.ts:139 | text without the separator is one part; a separator cuts there |
| CardValidator.SplitOfExpiry | src/contexts/order/application/checkout/checkout.ts:139 | a valid expiry splits into month and year text |
| CardValidator.PadStart | src/contexts/order/application/checkout/checkout.ts:143 | the text is kept as a suffix, filled on the left up to the width, counted in scalar values, which agree with UTF-16 units on the two ASCII digits it is given |
| CardValidator.Normalise | src/contexts/order/application/checkout/checkout.ts:139-146 | holder and cvc as given, month and year text around the slash, number without whitespace |
| CardValidator.NormalisedCardKeepsDigits | src/contexts/order/application/checkout/checkout.ts:139-146 | the normalised number is still valid with the same digits |
| CardValidator.CheckCard | src/contexts/order/application/checkout/checkout.ts:130-148 | `ok` exactly when all four checks pass; each error exactly when its check is the first that fails, in the order name, number, expiry, cvv |
| CardValidator.ValidateCreditCard | src/contexts/order/application/checkout/checkout.ts:111-152 | 'credit card payload invalid' exactly when decoding fails or a field is not a string; a decoded card gets the four checks' verdict, and an `ok` card is the normalised card |
| CardValidator.ValidateCreditCardIff | src/contexts/order/application/checkout/checkout.ts:111-152 | the payload is accepted exactly when it decodes to a card that passes all four checks; a decoded card that fails gets the error of the first check it fails |
| CreateOrderUseCase.Validate | src/contexts/order/application/create-order/create-order-use-case.ts:46-66 | items, then delivery, then quantities; each error exactly when its check is the first that fails |
| CreateOrderUseCase.ProductIds | src/contexts/order/application/create-order/create-order-use-case.ts:75 | the product ids of the lines, in order |
| CreateOrderUseCase.StockRequests | src/contexts/order/application/create-order/create-order-use-case.ts:83-88 | one `{id, quantity}` per line, in order |
| CreateOrderUseCase.ReserveRequests | src/contexts/order/application/create-order/create-order-use-case.ts:150-153 | one `{quantity, id}` per persisted line, in order |
| CreateOrderUseCase.ReserveMatchesCheck | src/contexts/order/application/create-order/create-order-use-case.ts:150-153 | the stock reserved is the stock pre-checked |
| CreateOrderUseCase.CustomerData | src/contexts/order/application/create-order/create-order-use-case.ts:109-116 | the delivery data under the customer id |
| CreateOrderUseCase.OrderPayload | src/contexts/order/application/create-order/create-order-use-case.ts:118-131 | PENDING, the priced lines, base fee their sum, tax and total as priced |
| CreateOrderUseCase.TransactionPayload | src/contexts/order/application/create-order/create-order-use-case.ts:136-147 | PENDING, paid by the delivery name, with the order's fees and total |
| CreateOrderUseCase.Unit | src/contexts/order/application/create-order/create-order-use-case.ts:108-157 | upsert first; a unit that returns made upsert, create order, create transaction and reserve in that order, and answers the upserted customer's id |
| CreateOrderUseCase.UnitStopsAtFirstFailure | src/contexts/order/application/create-order/create-order-use-case.ts:108-156 | each step is called exactly when every step before it answered `ok`, so a unit that throws stops at the failing step |
| CreateOrderUseCase.UnitAnswersWhatItCreated | src/contexts/order/application/create-order/create-order-use-case.ts:108-163 | a unit that returns answers the id `createOrder` gave, the upserted customer's id and the transaction `createTransactionTx` created |
| CreateOrderUseCase.GuardCalls | src/contexts/order/application/create-order/create-order-use-case.ts:68-69 | the lookup is made exactly when the order id is not empty |
| CreateOrderUseCase.AfterGuard | src/contexts/order/application/create-order/create-order-use-case.ts:75-171 | a failure writes nothing; the product lookup comes first |
| CreateOrderUseCase.Finish | src/contexts/order/application/create-order/create-order-use-case.ts:106-171 | the transaction step never rejects: a unit that fails is answered with `OrderFailed` and writes nothing; the calls made before it stay first in the log |
| CreateOrderUseCase.Execute | src/contexts/order/application/create-order/create-order-use-case.ts:31-172 | an invalid request is refused with no call; an existing order is refused with nothing written; every failure leaves the state as it was |
| CreateOrderUseCase.GuardIgnoresLookupErrors | src/contexts/order/application/create-order/create-order-use-case.ts:68-73 | a lookup that answers `err` acts as one that answers `ok(null)` |
| CreateOrderUseCase.AfterGuardIgnoresFindOrder | src/contexts/order/application/create-order/create-order-use-case.ts:68-73 | nothing after the guard reads the order lookup |
| CreateOrderUseCase.InventoryErrorsPassThrough | src/contexts/order/application/create-order/create-order-use-case.ts:75-91 | an error of the product lookup or of the stock check is the reply unchanged, nothing written |
| CreateOrderUseCase.UnitFailureIsOrderFailed | src/contexts/order/application/create-order/create-order-use-case.ts:107-171 | any failure in the unit gives 'Order failed, try later' (500) and the state before |
| CreateOrderUseCase.SuccessfulRunShape | src/contexts/order/application/create-order/create-order-use-case.ts:107-163 | a success passed validation and guard and made the four writes last, in order, with the payloads of the lines priced from the products it read |
| CreateOrderUseCase.CreateTransactionRow | src/contexts/order/application/create-order/create-order-use-case.ts:136-148 | the transaction store appends the payload under a fresh id and answers it |
| CreateOrderUseCase.StoreUnitEffect | src/contexts/order/application/create-order/create-order-use-case.ts:107-157 | over the store a unit that returns upserted the customer, stored the order under a new id, appended one transaction and reserved the lines |
| CreateOrderUseCase.OnlyReadsReject | src/contexts/order/application/create-order/create-order-use-case.ts:67-105 | a rejected promise comes only from a read outside the transaction: the order lookup, the product lookup, the stock check, or a requested product missing from the rows read |
| CreateOrderUseCase.StoreReadsSucceed | src/contexts/order/application/create-order/create-order-use-case.ts:75-105 | over the store the product lookup, the stock check and the pricing after the guard never reject |
| CreateOrderUseCase.StoreRunsNeverReject | src/contexts/order/application/create-order/create-order-use-case.ts:31-172 | over the store the promise never rejects |
| CreateOrderUseCase.StoreRunsKeepStockNonNegative | src/contexts/order/application/create-order/create-order-use-case.ts:150-154 | over the store stock never becomes negative |
| CreateOrderUseCase.StoreRepeatIsRefused | src/contexts/order/application/create-order/create-order-use-case.ts:68-73 | over the store the same request again is refused with `OrderAlreadyProcessedError` and writes nothing |
| CreateOrderUseCase.StoreSuccess | src/contexts/order/application/create-order/create-order-use-case.ts:75-163 | a success over the store read all products, priced every line, stored the order PENDING with those lines and reserved them |
| CreateOrderUseCase.LinesPricedFromTable | src/contexts/order/application/create-order/create-order-use-case.ts:94-105 | each line is priced at its product's stored price |
| CreateOrderUseCase.FoundProductHasStoredPrice | src/contexts/order/application/create-order/create-order-use-case.ts:95-96 | the product found for an id has that id's stored price |
| CreateOrderUseCase.LookupReadsRows | src/contexts/order/application/create-order/create-order-use-case.ts:75-81 | the lookup answers the row of each requested id (in request order, see Left out) |
| CreateOrderUseCase.LookupOrderIsIrrelevant | src/contexts/order/application/create-order/create-order-use-case.ts:75-105 | the products looked up have distinct ids, so the lines are priced the same for any order of those rows |
| CreateOrderUseCase.StoreRunPricesFromStock | src/contexts/order/application/create-order/create-order-use-case.ts:93-131 | the stored order holds one line per request line, in order, with its product, quantity and stored price |
| CreateOrderUseCase.StoreRunReservesDemand | src/contexts/order/application/create-order/create-order-use-case.ts:150-154 | each product's stock drops by its total demand and other products are unchanged |
| CheckoutUseCase.NewOrderStatus | src/contexts/order/application/checkout/checkout.ts:204-207 | PAID exactly for APPROVED, otherwise CANCELLED |
| CheckoutUseCase.IsProcessed | src/contexts/order/application/checkout/checkout.ts:59-62 | DELIVERED, PAID and CANCELLED are processed: exactly the orders that are not PENDING |
| CheckoutUseCase.NewTransactionStatus | src/contexts/order/application/checkout/checkout.ts:208-211 | SUCCESS exactly for APPROVED, otherwise CANCELLED |
| CheckoutUseCase.StatusesAgree | src/contexts/order/application/checkout/checkout.ts:204-211 | the order is PAID exactly when the transaction is SUCCESS |
| CheckoutUseCase.OrderPatchFor | src/contexts/order/application/checkout/checkout.ts:215-220 | the new order status and the payment instant |
| CheckoutUseCase.TransactionPatchFor | src/contexts/order/application/checkout/checkout.ts:234-241 | payer name, description, gateway reference, new status and the order's total |
| CheckoutUseCase.PaymentRequestFor | src/contexts/order/application/checkout/checkout.ts:79-88 | the card, the caller's customer and e-mail, the order's id, total and fees, and the transaction id |
| CheckoutUseCase.Unit | src/contexts/order/application/checkout/checkout.ts:213-242 | the order update first; the transaction update only after an `ok`; the unit returns exactly when both got through without throwing |
| CheckoutUseCase.Record | src/contexts/order/application/checkout/checkout.ts:197-249 | never throws; an error is 'Could not update order or transaction' with nothing written; success answers the payment result |
| CheckoutUseCase.Pay | src/contexts/order/application/checkout/checkout.ts:154-195 | one payment call first; failures write nothing; updates only move orders to PAID or CANCELLED |
| CheckoutUseCase.ExecuteWith | src/contexts/order/application/checkout/checkout.ts:38-109 | the lookup first; the payment at most once, second, only past the guards and only with an accepted card, whose data it carries; every failure leaves the state as it was; updates only move orders to PAID or CANCELLED |
| CheckoutUseCase.Execute | src/contexts/order/application/checkout/checkout.ts:38-109 | the payment port is reached only with the card that `validateCreditCard` made of `dto.creditCard`; a refused card is the reply after the lookup alone, with nothing written |
| CheckoutUseCase.GuardsComeFirst | src/contexts/order/application/checkout/checkout.ts:49-66 | a lookup error is the reply unchanged; a DELIVERED, PAID or CANCELLED order is refused; in both cases nothing else is called or written |
| CheckoutUseCase.CardErrorsStopBeforePayment | src/contexts/order/application/checkout/checkout.ts:68-75 | a card error is the reply and the payment port is not called |
| CheckoutUseCase.PaymentCalledOnce | src/contexts/order/application/checkout/checkout.ts:79-92 | the payment port gets the order's data; its `err` is the reply unchanged; its exception becomes 'Error procesando el pago'; nothing is written |
| CheckoutUseCase.OutcomeIsRecorded | src/contexts/order/application/checkout/checkout.ts:96-108 | the order update carries the mapped status; its failure gives 'Could not update order or transaction' with nothing written; otherwise the transaction update follows, its answer is ignored, and the payment result is the reply |
| CheckoutUseCase.RecordedUnit | src/contexts/order/application/checkout/checkout.ts:197-249 | the order update first; its failure rolls the unit back and gives 'Could not update order or transaction'; otherwise the transaction update follows, and only its exception turns the reply into that error |
| CheckoutUseCase.ExecuteReachesRecord | src/contexts/order/application/checkout/checkout.ts:79-108 | past the guards, with a valid card and an `ok` payment, the run is the lookup, the payment call, then the recording of that payment |
| CheckoutUseCase.LongRunsPaid | src/contexts/order/application/checkout/checkout.ts:49-96 | a run that goes past the payment call went through the guards, a valid card and an `ok` payment |
| CheckoutUseCase.OnlyOpenOrdersMove | src/contexts/order/application/checkout/checkout.ts:204-241 | only a PENDING order is updated, only to PAID or CANCELLED, and the transaction moves with it |

## Left out

- Card decoding: base64 (section 4 of RFC 4648) and JSON (RFC 8259) are an
  abstract `decode` parameter. It gives either nothing or the four fields, each
  a string or not.
- The clock: the current month is a `Clock` parameter. Instants are kept as
  their text and not interpreted.
- The Wompi payment adapter: HTTP, signing and vendor shapes. The payment
  service is a port answering `ok`, `err` or an exception. The adapter's
  `undefined` answer is covered by the exception case, because reading `isOk`
  of it throws inside the same `try`.
- IEEE-754 arithmetic: money is exact. Results agree with JavaScript only where
  the floating-point products are exact.
- uuid generation: the order and customer ids and the database keys are inputs.
- The transaction repository is modelled as an abstract store. Its Prisma
  implementation in `TransactionPrismaSchema.ts` is not part of this model: it
  reads the order before its null check, and its update never answers `ok`.
  `CreateOrderUseCase.CreateTransactionRow` stands in for the repository's
  create.
- `releaseStockTx`: a stub that answers `undefined`.
- The Prisma repository's `updateOrder` stub, and `updateOrderTx`, which is
  declared only on the abstract `OrderRepository`
  (`src/contexts/order/domain/order.repository.ts`, lines 6-10) and has no
  Prisma implementation among these files. Checkout takes both as ports.
- The exception path of `findByIdIfIsProccesed`: it logs and answers no result.
- `updateTransaction` is awaited inside the database transaction callback but
  runs on the plain client. The model puts it inside the unit. The two differ
  only when it writes and then throws.
- Quantities that are not numbers: a quantity is a `real`.
- NestJS wiring, controllers, DTO validation, `Logger` calls and the
  transaction timeout.
- `FindAllProductsUseCase` and `FindTransactionByIdUseCase`: they pass a
  repository answer through unchanged.
- CreateOrderUseCase.StoreRunPricesFromStock: does not restate
  `lineTotal = unitPrice * quantity`. `Pricing.PriceLine` states it for every
  line.
- CreateOrderUseCase.LinesPricedFromTable: likewise leaves `lineTotal` to
  `Pricing.PriceLine`, and states each line's product, quantity and stored price.
- CreateOrderUseCase.StoreRunReservesDemand: stated only for runs whose
  reservation has no database fault. With a fault the unit fails and nothing is
  written, which `CreateOrderUseCase.Execute` states.
- InventoryRepo.FindProductsById: lists the products in request order, and so
  does CreateOrderUseCase.LookupReadsRows. `findMany` without `orderBy` answers
  in database order, which a map-keyed table does not keep. No reply depends on
  that order: `CreateOrderUseCase.LookupOrderIsIrrelevant` proves the lines are
  priced the same for any order of the rows.
- Strings holding unpaired UTF-16 surrogates: a Dafny `char` is a Unicode scalar
  value, so such strings cannot be written. Every other string's JavaScript
  length is `CardValidator.Utf16Length`.

=== FILE: card_validator.dfy ===
/** The card checks of the checkout: the holder name, number, expiry and
    CVV rules, and the normalised card handed to the payment port. Text is a
    sequence of Unicode scalar values (Dafny's `char`); where JavaScript
    measures a string, `Utf16Length` counts its UTF-16 code units. `\d` is an
    ASCII digit and `\s` (also what `trim` removes) is ECMAScript WhiteSpace
    or LineTerminator. The current month is a parameter. */
module CardValidator {
  import opened Results
  import opened Errors

  // ---- characters

  predicate IsDigit(c: char) {
    '0' <= c <= '9'
  }

  /** ECMAScript WhiteSpace and LineTerminator code points. */
  predicate IsJsWhitespace(c: char) {
    c == '\t' || c == '\n' || c == '\U{B}' || c == '\U{C}' || c == '\r' || c == ' '
    || c == '\U{A0}' || c == '\U{1680}' || ('\U{2000}' <= c <= '\U{200A}')
    || c == '\U{2028}' || c == '\U{2029}' || c == '\U{202F}' || c == '\U{205F}'
    || c == '\U{3000}' || c == '\U{FEFF}'
  }

  predicate IsNotWhitespace(c: char) {
    !IsJsWhitespace(c)
  }

  /** The characters of `s` that satisfy `keep`, in order: `s.replace(/x/g, '')`
      where `x` matches exactly the characters `keep` rejects. */
  function Filter(s: string, keep: char -> bool): (r: string)
    ensures |r| <= |s|
    ensures forall k :: 0 <= k < |r| ==> keep(r[k])
    ensures forall k :: 0 <= k < |s| && keep(s[k]) ==> s[k] in r
    ensures forall c :: multiset(r)[c] == (if keep(c) then multiset(s)[c] else 0)
    decreases |s|
  {
    if |s| == 0 then []
    else
      var rest := Filter(s[1..], keep);
      MultisetOfFirstAndRest(s);
      if keep(s[0]) then [s[0]] + rest else rest
  }

  /** A non-empty text counts its first character once more than its rest. */
  lemma MultisetOfFirstAndRest(s: string)
    requires |s| > 0
    ensures multiset(s) == multiset{s[0]} + multiset(s[1..])
  {
    assert s == [s[0]] + s[1..];
  }

  /** Filtering a concatenation filters each part. */
  lemma {:induction false} FilterAppend(a: string, b: string, keep: char -> bool)
    ensures Filter(a + b, keep) == Filter(a, keep) + Filter(b, keep)
    decreases |a|
  {
    if |a| > 0 {
      assert (a + b)[1..] == a[1..] + b;
      FilterAppend(a[1..], b, keep);
    } else {
      assert a + b == b;
    }
  }

  /** Keeping what `narrow` keeps, after keeping what a wider `wide` keeps,
      is keeping what `narrow` keeps: the first pass loses nothing the
      second would have kept. */
  lemma {:induction false} FilterOfWiderFilter(s: string, narrow: char -> bool, wide: char -> bool)
    requires forall c :: narrow(c) ==> wide(c)
    ensures Filter(Filter(s, wide), narrow) == Filter(s, narrow)
    decreases |s|
  {
    if |s| > 0 {
      FilterOfWiderFilter(s[1..], narrow, wide);
      var rest := Filter(s[1..], wide);
      if wide(s[0]) {
        assert ([s[0]] + rest)[1..] == rest;
      }
    }
  }

  /** `s.replace(/\D/g, '')` */
  function Digits(s: string): (r: string)
    ensures forall k :: 0 <= k < |r| ==> IsDigit(r[k])
    ensures forall c :: multiset(r)[c] == (if IsDigit(c) then multiset(s)[c] else 0)
  {
    Filter(s, IsDigit)
  }

  /** `s.replace(/\s+/g, '')`: every run of whitespace removed. */
  function StripWhitespace(s: string): (r: string)
    ensures forall k :: 0 <= k < |r| ==> !IsJsWhitespace(r[k])
    ensures forall k :: 0 <= k < |s| && !IsJsWhitespace(s[k]) ==> s[k] in r
    ensures forall c :: multiset(r)[c] == (if IsJsWhitespace(c) then 0 else multiset(s)[c])
  {
    Filter(s, IsNotWhitespace)
  }

  /** Removing whitespace keeps every digit, in order. */
  lemma DigitsIgnoreWhitespace(s: string)
    ensures Digits(StripWhitespace(s)) == Digits(s)
  {
    FilterOfWiderFilter(s, IsDigit, IsNotWhitespace);
  }

  /** Taking the digits twice is taking them once. */
  lemma DigitsIdempotent(s: string)
    ensures Digits(Digits(s)) == Digits(s)
  {
    FilterOfWiderFilter(s, IsDigit, IsDigit);
  }

  // ---- trim

  /** How many whitespace characters `s` starts with. */
  function LeadingSpace(s: string): (n: nat)
    ensures n <= |s|
    ensures forall k :: 0 <= k < n ==> IsJsWhitespace(s[k])
    ensures n < |s| ==> !IsJsWhitespace(s[n])
    decreases |s|
  {
    if |s| == 0 || !IsJsWhitespace(s[0]) then 0
    else
      var n := LeadingSpace(s[1..]);
      assert forall k :: 1 <= k < |s| ==> s[k] == s[1..][k - 1];
      n + 1
  }

  /** How many whitespace characters `s` ends with. */
  function TrailingSpace(s: string): (n: nat)
    ensures n <= |s|
    ensures forall k :: |s| - n <= k < |s| ==> IsJsWhitespace(s[k])
    ensures n < |s| ==> !IsJsWhitespace(s[|s| - n - 1])
    decreases |s|
  {
    if |s| == 0 || !IsJsWhitespace(s[|s| - 1]) then 0
    else TrailingSpace(s[..|s| - 1]) + 1
  }

  /** `s.trim()`: leading and trailing whitespace removed. */
  function Trim(s: string): (r: string)
    ensures |r| <= |s|
    ensures |r| > 0 ==> !IsJsWhitespace(r[0]) && !IsJsWhitespace(r[|r| - 1])
    ensures exists i :: 0 <= i <= |s| - |r| && r == s[i..][..|r|] && OnlySpaceOutside(s, i, |r|)
  {
    var t := s[LeadingSpace(s)..];
    SpaceAroundTrim(s);
    t[..|t| - TrailingSpace(t)]
  }

  /** What `Trim` cuts off, at the front and at the back, is whitespace. */
  lemma SpaceAroundTrim(s: string)
    ensures var t := s[LeadingSpace(s)..];
      OnlySpaceOutside(s, LeadingSpace(s), |t| - TrailingSpace(t))
  {
    var a := LeadingSpace(s);
    var t := s[a..];
    assert forall k :: a <= k < |s| ==> s[k] == t[k - a];
  }

  /** Every character of `s` outside `s[i..i + n]` is whitespace. */
  predicate OnlySpaceOutside(s: string, i: int, n: int) {
    forall k :: 0 <= k < |s| && (k < i || k >= i + n) ==> IsJsWhitespace(s[k])
  }

  // ---- JavaScript string length

  /** A code point above U+FFFF: a surrogate pair in UTF-16. */
  predicate IsAstral(c: char) {
    c as int >= 0x1_0000
  }

  /** The UTF-16 code units of one character. */
  function Utf16Units(c: char): (n: nat) {
    if IsAstral(c) then 2 else 1
  }

  /** `s.length`: the number of UTF-16 code units of `s`. */
  function Utf16Length(s: string): (n: nat)
    ensures |s| <= n <= 2 * |s|
    ensures n == |s| <==> forall k :: 0 <= k < |s| ==> !IsAstral(s[k])
    decreases |s|
  {
    if |s| == 0 then 0
    else
      var rest := Utf16Length(s[1..]);
      assert forall k :: 1 <= k < |s| ==> s[k] == s[1..][k - 1];
      Utf16Units(s[0]) + rest
  }

  /** The length of a concatenation is the sum of the lengths. */
  lemma {:induction false} Utf16LengthAppend(a: string, b: string)
    ensures Utf16Length(a + b) == Utf16Length(a) + Utf16Length(b)
    decreases |a|
  {
    if |a| > 0 {
      assert (a + b)[1..] == a[1..] + b;
      Utf16LengthAppend(a[1..], b);
    } else {
      assert a + b == b;
    }
  }

  /** No whitespace character is astral. */
  lemma AstralIsNotSpace(c: char)
    requires IsAstral(c)
    ensures !IsJsWhitespace(c)
  {
  }

  /** Two non-whitespace characters somewhere in `s`. */
  predicate HasTwoNonSpace(s: string) {
    exists i, j :: 0 <= i < j < |s| && !IsJsWhitespace(s[i]) && !IsJsWhitespace(s[j])
  }

  /** An astral character somewhere in `s`. */
  predicate HasAstral(s: string) {
    exists i :: 0 <= i < |s| && IsAstral(s[i])
  }

  /** `cardName.trim().length >= 2`, the length in UTF-16 code units. The
      name is accepted exactly when it has at least two characters that are
      not whitespace (wherever they stand), or one character outside the
      Basic Multilingual Plane, which JavaScript counts twice. */
  predicate IsValidCardHolder(name: string)
    ensures IsValidCardHolder(name) <==> HasTwoNonSpace(name) || HasAstral(name)
  {
    TrimKeepsTwoIff(name);
    if |Trim(name)| <= 1 then
      ShortTrimIff(name);
      Utf16Length(Trim(name)) >= 2
    else
      Utf16Length(Trim(name)) >= 2
  }

  /** The trimmed text has two characters exactly when the text has two
      non-whitespace characters. */
  lemma TrimKeepsTwoIff(name: string)
    ensures |Trim(name)| >= 2 <==> HasTwoNonSpace(name)
  {
    var tr := Trim(name);
    var i :| 0 <= i <= |name| - |tr| && tr == name[i..][..|tr|] && OnlySpaceOutside(name, i, |tr|);
    if |tr| >= 2 {
      assert tr[0] == name[i] && tr[|tr| - 1] == name[i + |tr| - 1];
    }
    if HasTwoNonSpace(name) {
      var j, k :| 0 <= j < k < |name| && !IsJsWhitespace(name[j]) && !IsJsWhitespace(name[k]);
      assert i <= j && k < i + |tr|;
    }
  }

  /** A trimmed text of at most one character measures two code units
      exactly when the text holds an astral character. */
  lemma ShortTrimIff(name: string)
    requires |Trim(name)| <= 1
    ensures Utf16Length(Trim(name)) >= 2 <==> HasAstral(name)
  {
    var tr := Trim(name);
    var i :| 0 <= i <= |name| - |tr| && tr == name[i..][..|tr|] && OnlySpaceOutside(name, i, |tr|);
    if |tr| == 1 {
      assert Utf16Length(tr) == Utf16Units(tr[0]) + Utf16Length(tr[1..]);
      assert tr[0] == name[i];
    }
    if HasAstral(name) {
      var k :| 0 <= k < |name| && IsAstral(name[k]);
      AstralIsNotSpace(name[k]);
      assert i <= k < i + |tr|;
    }
  }

  /** A holder name of one emoji is two UTF-16 code units and passes; one
      letter between spaces does not. */
  lemma HolderNameExamples()
    ensures IsValidCardHolder("\U{1F600}")
    ensures !IsValidCardHolder(" a ")
  {
    assert IsAstral("\U{1F600}"[0]);
    assert !HasTwoNonSpace(" a ");
  }

  // ---- number and cvv

  /** How many characters of `s` are ASCII digits, wherever they stand. */
  function DigitCount(s: string): nat
    decreases |s|
  {
    if |s| == 0 then 0 else (if IsDigit(s[0]) then 1 else 0) + DigitCount(s[1..])
  }

  /** The digit string is as long as the text has digits. */
  lemma {:induction false} DigitsLength(s: string)
    ensures |Digits(s)| == DigitCount(s)
    decreases |s|
  {
    if |s| > 0 {
      DigitsLength(s[1..]);
    }
  }

  /** `isValidCardNumber`: 12 to 19 digits, other characters ignored. */
  predicate IsValidCardNumber(number: string)
    ensures IsValidCardNumber(number) <==> 12 <= DigitCount(number) <= 19
  {
    DigitsLength(number);
    12 <= |Digits(number)| <= 19
  }

  /** `isValidCvv`: 3 or 4 digits, other characters ignored. */
  predicate IsValidCvv(cvv: string)
    ensures IsValidCvv(cvv) <==> DigitCount(cvv) == 3 || DigitCount(cvv) == 4
  {
    DigitsLength(cvv);
    |Digits(cvv)| == 3 || |Digits(cvv)| == 4
  }

  /** Normalising the number cannot change its verdict. */
  lemma NumberValidityIgnoresWhitespace(number: string)
    ensures IsValidCardNumber(StripWhitespace(number)) <==> IsValidCardNumber(number)
  {
    DigitsIgnoreWhitespace(number);
  }

  /** Only the digits count: a number (or cvv) is judged by its digits alone. */
  lemma ValidityDependsOnDigitsOnly(s: string)
    ensures IsValidCardNumber(Digits(s)) <==> IsValidCardNumber(s)
    ensures IsValidCvv(Digits(s)) <==> IsValidCvv(s)
  {
    DigitsIdempotent(s);
  }

  // ---- expiry

  /** The current month as `new Date()` reports it: full year and a month
      index counted from 0. */
  datatype Clock = Clock(fullYear: int, monthIndex: int)

  predicate ValidClock(now: Clock) {
    0 <= now.monthIndex <= 11
  }

  predicate AllDigits(s: string) {
    forall k :: 0 <= k < |s| ==> IsDigit(s[k])
  }

  /** `/^(\d{2})\/(\d{2,4})$/` */
  predicate MatchesExpPattern(e: string) {
    5 <= |e| <= 7 && AllDigits(e[..2]) && e[2] == '/' && AllDigits(e[3..])
  }

  /** `Number(s)` of a string of decimal digits. */
  function DecimalValue(s: string): (n: nat)
    requires AllDigits(s)
    ensures |s| == 1 ==> n == s[0] as int - '0' as int
    ensures n < Pow10(|s|)
    decreases |s|
  {
    if |s| == 0 then 0
    else DecimalValue(s[..|s| - 1]) * 10 + (s[|s| - 1] as int - '0' as int)
  }

  function Pow10(k: nat): (p: nat)
    ensures p >= 1
  {
    if k == 0 then 1 else 10 * Pow10(k - 1)
  }

  /** Positional notation: the digits of `b` written after those of `a`
      shift `a`'s value by ten to the length of `b`. */
  lemma {:induction false} DecimalValueAppend(a: string, b: string)
    requires AllDigits(a) && AllDigits(b)
    ensures AllDigits(a + b)
    ensures DecimalValue(a + b) == DecimalValue(a) * Pow10(|b|) + DecimalValue(b)
    decreases |b|
  {
    var ab := a + b;
    assert forall k :: 0 <= k < |ab| ==> IsDigit(ab[k]) by {
      forall k | 0 <= k < |ab| ensures IsDigit(ab[k]) {
        if k >= |a| { assert ab[k] == b[k - |a|]; }
      }
    }
    if |b| == 0 {
      assert ab == a;
    } else {
      var b' := b[..|b| - 1];
      var d := b[|b| - 1] as int - '0' as int;
      assert ab[..|ab| - 1] == a + b';
      assert ab[|ab| - 1] == b[|b| - 1];
      assert AllDigits(b');
      DecimalValueAppend(a, b');
      var x, y, p := DecimalValue(a), DecimalValue(b'), Pow10(|b'|);
      assert DecimalValue(ab) == (x * p + y) * 10 + d;
      assert DecimalValue(b) == y * 10 + d;
      assert Pow10(|b|) == 10 * p;
      ShiftByDigit(x, p, y, d);
    }
  }

  /** Appending a digit multiplies what stands before it by ten. */
  lemma ShiftByDigit(x: int, p: int, y: int, d: int)
    ensures (x * p + y) * 10 + d == x * (10 * p) + (y * 10 + d)
  {
  }

  /** The two-digit values the expiry reads: tens digit first. */
  lemma TwoDigitValue(s: string)
    requires |s| == 2 && AllDigits(s)
    ensures DecimalValue(s) == 10 * (s[0] as int - '0' as int) + (s[1] as int - '0' as int)
  {
    DecimalValueAppend(s[..1], s[1..]);
    assert s[..1] + s[1..] == s;
  }

  /** The month of an expiry that matches the pattern. */
  function ExpMonth(e: string): (m: nat)
    requires MatchesExpPattern(e)
    ensures m <= 99
  {
    DecimalValue(e[..2])
  }

  /** The year of an expiry that matches the pattern: two digits are a year
      of this century, three or four digits are taken as written. */
  function ExpYear(e: string): (y: nat)
    requires MatchesExpPattern(e)
    ensures |e| == 5 ==> 2000 <= y <= 2099
    ensures |e| > 5 ==> y <= 9999
  {
    var yy := e[3..];
    if |yy| == 2 then 2000 + DecimalValue(yy) else DecimalValue(yy)
  }

  /** The year `new Date(year, month, 1)` lands in: 0 to 99 mean 1900 to 1999. */
  function JsDateYear(y: int): (r: int)
    ensures 0 <= y <= 99 ==> r == 1900 + y
    ensures (y < 0 || y > 99) ==> r == y
  {
    if 0 <= y <= 99 then 1900 + y else y
  }

  /** A first-of-month `Date` as a count of months, which orders such dates
      as their time values do. */
  function MonthCount(year: int, monthIndex: int): int {
    JsDateYear(year) * 12 + monthIndex
  }

  /** An expiry of the right pattern with a month from 1 to 12. */
  predicate WellFormedExpiry(e: string) {
    MatchesExpPattern(e) && 1 <= ExpMonth(e) <= 12
  }

  /** `isValidExpDate(exp)` at the month `now`: never a card of an earlier
      year (after the `Date` year shift), always a well-formed one of a later
      year. */
  predicate IsValidExpDate(e: string, now: Clock)
    ensures IsValidExpDate(e, now) ==> WellFormedExpiry(e)
    ensures ValidClock(now) && IsValidExpDate(e, now) ==> JsDateYear(ExpYear(e)) >= JsDateYear(now.fullYear)
    ensures ValidClock(now) && WellFormedExpiry(e) && JsDateYear(ExpYear(e)) > JsDateYear(now.fullYear) ==>
      IsValidExpDate(e, now)
  {
    MatchesExpPattern(e)
    && 1 <= ExpMonth(e) <= 12
    && MonthCount(ExpYear(e), ExpMonth(e) - 1) >= MonthCount(now.fullYear, now.monthIndex)
  }

  /** The date comparison is the lexicographic one on (year, month): a card
      is accepted up to and including its expiry month. */
  lemma ExpiryIsLexicographic(e: string, now: Clock)
    requires ValidClock(now) && MatchesExpPattern(e) && 1 <= ExpMonth(e) <= 12
    ensures IsValidExpDate(e, now) <==>
      JsDateYear(ExpYear(e)) > JsDateYear(now.fullYear)
      || (JsDateYear(ExpYear(e)) == JsDateYear(now.fullYear) && ExpMonth(e) - 1 >= now.monthIndex)
  {
    var y, n := JsDateYear(ExpYear(e)), JsDateYear(now.fullYear);
    var m := ExpMonth(e) - 1;
    if y > n {
      assert y * 12 >= n * 12 + 12;
    } else if y < n {
      assert y * 12 + 12 <= n * 12;
    }
  }

  /** A two-digit year is 2000 + yy, and the date shift never applies to it. */
  lemma TwoDigitYear(e: string)
    requires MatchesExpPattern(e) && |e| == 5
    ensures ExpYear(e) == 2000 + DecimalValue(e[3..])
    ensures JsDateYear(ExpYear(e)) == ExpYear(e)
  {
  }

  /** Worked figures at December 2025: "12/25" is still good; "11/25", a
      month "13" and a one-digit month are not. */
  lemma ExpiryExamples()
    ensures IsValidExpDate("12/25", Clock(2025, 11))
    ensures !IsValidExpDate("11/25", Clock(2025, 11))
    ensures !IsValidExpDate("13/30", Clock(2025, 11))
    ensures !IsValidExpDate("1/30", Clock(2025, 11))
  {
    assert !MatchesExpPattern("1/30") by { assert "1/30"[2] != '/' || |"1/30"| < 5; }
    assert ExpMonth("12/25") == 12 by { assert "12/25"[..2] == "12"; assert "12"[..1] == "1"; }
    assert ExpYear("12/25") == 2025 by { assert "12/25"[3..] == "25"; assert "25"[..1] == "2"; }
    assert ExpMonth("11/25") == 11 by { assert "11/25"[..2] == "11"; assert "11"[..1] == "1"; }
    assert ExpYear("11/25") == 2025 by { assert "11/25"[3..] == "25"; assert "25"[..1] == "2"; }
    assert ExpMonth("13/30") == 13 by { assert "13/30"[..2] == "13"; assert "13"[..1] == "1"; }
  }

  /** Years written with four digits at December 2025: "01/2026" is good,
      and "12/0099" is the year 99, which the date shift turns into 1999. */
  lemma LongYearExamples()
    ensures IsValidExpDate("01/2026", Clock(2025, 11))
    ensures !IsValidExpDate("12/0099", Clock(2025, 11))
  {
    assert ExpMonth("01/2026") == 1 by { assert "01/2026"[..2] == "01"; assert "01"[..1] == "0"; }
    assert ExpYear("01/2026") == 2026 by {
      assert "01/2026"[3..] == "2026";
      assert "2026"[..3] == "202"; assert "202"[..2] == "20"; assert "20"[..1] == "2";
    }
    assert ExpMonth("12/0099") == 12 by { assert "12/0099"[..2] == "12"; assert "12"[..1] == "1"; }
    assert ExpYear("12/0099") == 99 by {
      assert "12/0099"[3..] == "0099";
      assert "0099"[..3] == "009"; assert "009"[..2] == "00"; assert "00"[..1] == "0";
    }
  }

  // ---- split and pad

  /** `s.split(sep)` for a one-character separator. */
  function Split(s: string, sep: char): (parts: seq<string>)
    ensures |parts| >= 1
    decreases |s|
  {
    if |s| == 0 then [""]
    else
      var rest := Split(s[1..], sep);
      if s[0] == sep then [""] + rest else [[s[0]] + rest[0]] + rest[1..]
  }

  /** `parts.join(sep)` */
  function Join(parts: seq<string>, sep: char): string
    requires |parts| >= 1
    decreases |parts|
  {
    if |parts| == 1 then parts[0] else parts[0] + [sep] + Join(parts[1..], sep)
  }

  /** Splitting loses nothing: joining the parts gives the text back. */
  lemma {:induction false} SplitJoin(s: string, sep: char)
    ensures Join(Split(s, sep), sep) == s
    decreases |s|
  {
    if |s| > 0 {
      SplitJoin(s[1..], sep);
      var rest := Split(s[1..], sep);
      if s[0] == sep {
        assert ([""] + rest)[1..] == rest;
        assert s == [sep] + s[1..];
      } else {
        var parts := [[s[0]] + rest[0]] + rest[1..];
        if |rest| == 1 {
          assert s == [s[0]] + rest[0];
        } else {
          assert parts[1..] == rest[1..];
          assert Join(rest, sep) == rest[0] + [sep] + Join(rest[1..], sep);
          assert s == [s[0]] + s[1..];
        }
      }
    }
  }

  /** No part of a split holds the separator. */
  lemma {:induction false} SplitPartsLackSeparator(s: string, sep: char)
    ensures forall i :: 0 <= i < |Split(s, sep)| ==> sep !in Split(s, sep)[i]
    decreases |s|
  {
    if |s| > 0 {
      SplitPartsLackSeparator(s[1..], sep);
      var rest := Split(s[1..], sep);
      if s[0] != sep {
        var parts := [[s[0]] + rest[0]] + rest[1..];
        forall i | 0 <= i < |parts| ensures sep !in parts[i] {
          if i > 0 {
            assert parts[i] == rest[i];
          }
        }
      }
    }
  }

  /** Text without the separator is one part; a separator after such text
      closes the first part. */
  lemma {:induction false} SplitAtFirst(a: string, b: string, sep: char)
    requires sep !in a
    ensures Split(a, sep) == [a]
    ensures Split(a + [sep] + b, sep) == [a] + Split(b, sep)
    decreases |a|
  {
    if |a| == 0 {
      assert a + [sep] + b == [sep] + b;
      assert ([sep] + b)[1..] == b;
    } else {
      SplitAtFirst(a[1..], b, sep);
      assert (a + [sep] + b)[1..] == a[1..] + [sep] + b;
      assert [a[0]] + a[1..] == a;
    }
  }

  /** An expiry that matches the pattern splits into its month and year text. */
  lemma SplitOfExpiry(e: string)
    requires MatchesExpPattern(e)
    ensures Split(e, '/') == [e[..2], e[3..]]
  {
    assert e == e[..2] + ['/'] + e[3..];
    assert '/' !in e[..2] by { assert forall k :: 0 <= k < 2 ==> IsDigit(e[..2][k]); }
    assert '/' !in e[3..] by { assert forall k :: 0 <= k < |e[3..]| ==> IsDigit(e[3..][k]); }
    SplitAtFirst(e[..2], e[3..], '/');
    SplitAtFirst(e[3..], [], '/');
  }

  /** `s.padStart(width, fill)`, measuring `s` in scalar values where
      JavaScript counts UTF-16 code units. The checkout pads only the two
      ASCII digits of a month that passed the expiry pattern, and on ASCII
      text the two counts are equal. */
  function PadStart(s: string, width: nat, fill: char): (r: string)
    ensures |s| >= width ==> r == s
    ensures |s| < width ==> |r| == width
    ensures r[|r| - |s|..] == s
    ensures forall k :: 0 <= k < |r| - |s| ==> r[k] == fill
  {
    if |s| >= width then s else seq(width - |s|, _ => fill) + s
  }

  // ---- the card

  /** What the decoder found under the four keys: each a string, or not
      (absent, or of another JSON type). */
  datatype RawCard = RawCard(
    cardName: Option<string>,
    cardNumber: Option<string>,
    expDate: Option<string>,
    cvv: Option<string>)

  /** `DecryptedCreditCard` */
  datatype DecryptedCard = DecryptedCard(cardName: string, cardNumber: string, expDate: string, cvv: string)

  /** `PaymentMethodCard`, as sent to the payment port. */
  datatype PaymentMethodCard = PaymentMethodCard(
    number: string,
    expMonth: string,
    expYear: string,
    cvc: string,
    cardHolder: string)

  const CardPayloadInvalid: Error := PaymentGenericError(Some("credit card payload invalid"))
  const InvalidHolder: Error := PaymentCreditCardError(Some("Invalid card holder name"))
  const InvalidNumber: Error := PaymentCreditCardError(Some("Invalid card number"))
  const InvalidExpiry: Error := PaymentCreditCardError(Some("Invalid expiration date"))
  const InvalidCvv: Error := PaymentCreditCardError(Some("Invalid CVV"))

  /** All four checks pass. */
  predicate IsValidCard(card: DecryptedCard, now: Clock) {
    IsValidCardHolder(card.cardName) && IsValidCardNumber(card.cardNumber)
    && IsValidExpDate(card.expDate, now) && IsValidCvv(card.cvv)
  }

  /** The card built from a valid one: the name and cvv as given, the month
      text padded to two characters, the year text as written, the number
      without whitespace. */
  function Normalise(card: DecryptedCard): (r: PaymentMethodCard)
    requires MatchesExpPattern(card.expDate)
    ensures r.cardHolder == card.cardName && r.cvc == card.cvv
    ensures r.expMonth == card.expDate[..2] && r.expYear == card.expDate[3..]
    ensures r.number == StripWhitespace(card.cardNumber)
  {
    SplitOfExpiry(card.expDate);
    var parts := Split(card.expDate, '/');
    PaymentMethodCard(StripWhitespace(card.cardNumber), PadStart(parts[0], 2, '0'), parts[1], card.cvv, card.cardName)
  }

  /** The four checks in order: name, number, expiry, cvv; the first that
      fails names its field. */
  function CheckCard(card: DecryptedCard, now: Clock): (r: Result<PaymentMethodCard, Error>)
    ensures r.Ok? <==> IsValidCard(card, now)
    ensures r == Err(InvalidHolder) <==> !IsValidCardHolder(card.cardName)
    ensures r == Err(InvalidNumber) <==> IsValidCardHolder(card.cardName) && !IsValidCardNumber(card.cardNumber)
    ensures r == Err(InvalidExpiry) <==>
      IsValidCardHolder(card.cardName) && IsValidCardNumber(card.cardNumber) && !IsValidExpDate(card.expDate, now)
    ensures r == Err(InvalidCvv) <==>
      IsValidCardHolder(card.cardName) && IsValidCardNumber(card.cardNumber) && IsValidExpDate(card.expDate, now)
      && !IsValidCvv(card.cvv)
  {
    if !IsValidCardHolder(card.cardName) then Err(InvalidHolder)
    else if !IsValidCardNumber(card.cardNumber) then Err(InvalidNumber)
    else if !IsValidExpDate(card.expDate, now) then Err(InvalidExpiry)
    else if !IsValidCvv(card.cvv) then Err(InvalidCvv)
    else Ok(Normalise(card))
  }

  /** The four fields, when all four are strings. */
  function AsCard(raw: RawCard): Option<DecryptedCard> {
    if raw.cardName.Some? && raw.cardNumber.Some? && raw.expDate.Some? && raw.cvv.Some? then
      Some(DecryptedCard(raw.cardName.value, raw.cardNumber.value, raw.expDate.value, raw.cvv.value))
    else None
  }

  /** `validateCreditCard(encoded)`. `decode` stands for base64 then JSON
      decoding; it fails (None) where those throw or give `null`. */
  function ValidateCreditCard(decode: string -> Option<RawCard>, now: Clock, encoded: string): (r: Result<PaymentMethodCard, Error>)
    ensures r == Err(CardPayloadInvalid) <==> decode(encoded).None? || AsCard(decode(encoded).value).None?
    ensures r.Ok? ==> decode(encoded).Some? && AsCard(decode(encoded).value).Some?
    ensures r.Ok? ==>
      var card := AsCard(decode(encoded).value).value;
      IsValidCard(card, now)
      && r.value.cardHolder == card.cardName && r.value.cvc == card.cvv
      && r.value.expMonth == card.expDate[..2] && r.value.expYear == card.expDate[3..]
      && r.value.number == StripWhitespace(card.cardNumber)
    ensures decode(encoded).Some? && AsCard(decode(encoded).value).Some? ==>
      r == CheckCard(AsCard(decode(encoded).value).value, now)
  {
    match decode(encoded)
    case None => Err(CardPayloadInvalid)
    case Some(raw) =>
      match AsCard(raw)
      case None => Err(CardPayloadInvalid)
      case Some(card) => CheckCard(card, now)
  }

  /** The payload is accepted exactly when it decodes to four strings that
      pass the four checks; a decoded card that fails gets the error of the
      first check it fails, in the order holder, number, expiry, cvv. */
  lemma ValidateCreditCardIff(decode: string -> Option<RawCard>, now: Clock, encoded: string)
    ensures var r := ValidateCreditCard(decode, now, encoded);
      r.Ok? <==> decode(encoded).Some? && AsCard(decode(encoded).value).Some?
                 && IsValidCard(AsCard(decode(encoded).value).value, now)
    ensures var r := ValidateCreditCard(decode, now, encoded);
      decode(encoded).Some? && AsCard(decode(encoded).value).Some? ==>
      var card := AsCard(decode(encoded).value).value;
      (r == Err(InvalidHolder) <==> !IsValidCardHolder(card.cardName))
      && (r == Err(InvalidNumber) <==> IsValidCardHolder(card.cardName) && !IsValidCardNumber(card.cardNumber))
      && (r == Err(InvalidExpiry) <==> IsValidCardHolder(card.cardName) && IsValidCardNumber(card.cardNumber)
                                       && !IsValidExpDate(card.expDate, now))
  {
  }

  /** The normalised number is still a valid number with the same digits,
      and its month text needs no padding. */
  lemma NormalisedCardKeepsDigits(card: DecryptedCard, now: Clock)
    requires IsValidCard(card, now)
    ensures var n := Normalise(card);
      Digits(n.number) == Digits(card.cardNumber) && IsValidCardNumber(n.number)
      && |n.expMonth| == 2 && AllDigits(n.expMonth) && IsValidCvv(n.cvc)
  {
    DigitsIgnoreWhitespace(card.cardNumber);
  }
}

=== FILE: checkout.dfy ===
/** `CheckoutUseCase.execute`: find the transaction and its order, refuse an
    order already processed, validate the card, call the payment port once,
    then in one unit of work record the outcome on the order and the
    transaction. APPROVED makes the order PAID and the transaction SUCCESS;
    any other status makes both CANCELLED. */
module CheckoutUseCase {
  import opened Results
  import opened Errors
  import opened Orders
  import opened Transactions
  import opened Store
  import opened OrderRepo
  import opened CardValidator

  /** `CheckOutDto`: the card is the encoded payload. */
  datatype Request = Request(transactionId: string, emailHolder: string, customerId: string, creditCard: string)

  /** The order fields the checkout reads from the transaction's order. */
  datatype OrderView = OrderView(id: Option<string>, status: OrderStatus, totalAmount: real, baseFee: real, taxFee: real)

  /** What `findOrderByTransactionId` answers: the transaction and its order. */
  datatype TransactionWithOrder = TransactionWithOrder(transaction: Transaction, order: OrderView)

  /** `ProcessPaymentMethod` */
  datatype PaymentRequest = PaymentRequest(
    creditCard: PaymentMethodCard,
    customerId: string,
    emailHolder: string,
    orderId: Option<string>,
    totalAmount: real,
    transactionId: Option<string>,
    baseFee: real,
    taxFee: real)

  /** `ProcessPaymentMethodResult`; `status` is kept as the text received. */
  datatype PaymentResult = PaymentResult(
    totalAmount: real,
    baseFee: real,
    taxFee: real,
    createdAt: Instant,
    currency: string,
    status: string,
    id: string,
    orderId: string,
    payerName: string,
    payerReference: string,
    description: string)

  /** The order update: the new status and the payment instant. */
  datatype OrderPatch = OrderPatch(status: OrderStatus, paidAt: Instant)

  /** The transaction update. */
  datatype TransactionPatch = TransactionPatch(
    payerName: string,
    description: string,
    payerTransactionId: string,
    paymentStatus: TransactionStatus,
    totalAmount: real)

  /** A port call, with what it was given. */
  datatype Call =
    | FindTransaction(transactionId: string)
    | ProcessPaymentCall(request: PaymentRequest)
    | UpdateOrderCall(orderId: Option<string>, patch: OrderPatch)
    | UpdateTransactionCall(txId: Option<string>, txPatch: TransactionPatch)

  /** The transaction and order repositories and the payment service. The
      payment service is outside the database and does not see the state. */
  datatype Ports = Ports(
    findOrderByTransactionId: (Store, string) -> Outcome<Result<TransactionWithOrder, Error>>,
    updateOrder: (Store, Option<string>, OrderPatch) -> Step<bool, Store>,
    updateTransaction: (Store, Option<string>, TransactionPatch) -> Step<bool, Store>,
    processPayment: PaymentRequest -> Outcome<Result<PaymentResult, Error>>)

  type Run = Attempt<Result<PaymentResult, Error>, Store, Call>

  const PaymentThrew: Error := PaymentGenericError(Some("Error procesando el pago"))
  const UpdateFailed: Error := PaymentGenericError(Some("Could not update order or transaction"))

  /** DELIVERED, PAID and CANCELLED orders are not paid again: only a
      PENDING order goes on to payment. */
  predicate IsProcessed(status: OrderStatus)
    ensures IsProcessed(status) <==> status != OrderStatus.Pending
  {
    status == Delivered || status == Paid || status == OrderStatus.Cancelled
  }

  /** The order status a payment result leads to. */
  function NewOrderStatus(pr: PaymentResult): (st: OrderStatus)
    ensures st == Paid <==> pr.status == "APPROVED"
    ensures st == Paid || st == OrderStatus.Cancelled
  {
    if pr.status == "APPROVED" then Paid else OrderStatus.Cancelled
  }

  /** The transaction status a payment result leads to. */
  function NewTransactionStatus(pr: PaymentResult): (st: TransactionStatus)
    ensures st == Success <==> pr.status == "APPROVED"
    ensures st == Success || st == TransactionStatus.Cancelled
  {
    if pr.status == "APPROVED" then Success else TransactionStatus.Cancelled
  }

  /** The order and the transaction always move together: both succeed or
      both are cancelled. */
  lemma StatusesAgree(pr: PaymentResult)
    ensures NewOrderStatus(pr) == Paid <==> NewTransactionStatus(pr) == Success
    ensures NewOrderStatus(pr) == OrderStatus.Cancelled <==> NewTransactionStatus(pr) == TransactionStatus.Cancelled
  {
  }

  function OrderPatchFor(pr: PaymentResult): (patch: OrderPatch)
    ensures patch.status == NewOrderStatus(pr) && patch.paidAt == pr.createdAt
  {
    OrderPatch(NewOrderStatus(pr), pr.createdAt)
  }

  /** The transaction update carries the payer, the description, the
      gateway reference and the order's total. */
  function TransactionPatchFor(pr: PaymentResult, totalAmount: real): (patch: TransactionPatch)
    ensures patch.payerName == pr.payerName && patch.description == pr.description
    ensures patch.payerTransactionId == pr.payerReference
    ensures patch.paymentStatus == NewTransactionStatus(pr) && patch.totalAmount == totalAmount
  {
    TransactionPatch(pr.payerName, pr.description, pr.payerReference, NewTransactionStatus(pr), totalAmount)
  }

  /** The payment request: the card, the caller's customer and e-mail, and
      the order's id, amounts and transaction. */
  function PaymentRequestFor(card: PaymentMethodCard, req: Request, found: TransactionWithOrder): (r: PaymentRequest)
    ensures r.creditCard == card && r.customerId == req.customerId && r.emailHolder == req.emailHolder
    ensures r.orderId == found.order.id && r.totalAmount == found.order.totalAmount
    ensures r.baseFee == found.order.baseFee && r.taxFee == found.order.taxFee
    ensures r.transactionId == found.transaction.id
  {
    PaymentRequest(card, req.customerId, req.emailHolder, found.order.id, found.order.totalAmount,
                   found.transaction.id, found.order.baseFee, found.order.taxFee)
  }

  /** The callback of `runInTransaction` in `updateOrderAndTransaction`: an
      order update that does not return `ok` throws; the transaction update
      is awaited but its answer is not looked at. */
  function Unit(p: Ports, st: Store, orderId: Option<string>, transactionId: Option<string>,
                totalAmount: real, pr: PaymentResult): (a: Attempt<bool, Store, Call>)
    ensures 1 <= |a.calls| <= 2
    ensures a.calls[0] == UpdateOrderCall(orderId, OrderPatchFor(pr))
    ensures |a.calls| == 2 <==> Succeeded(p.updateOrder(st, orderId, OrderPatchFor(pr)).outcome)
    ensures |a.calls| == 2 ==> a.calls[1] == UpdateTransactionCall(transactionId, TransactionPatchFor(pr, totalAmount))
    ensures a.outcome.Returned? <==>
      Succeeded(p.updateOrder(st, orderId, OrderPatchFor(pr)).outcome)
      && p.updateTransaction(p.updateOrder(st, orderId, OrderPatchFor(pr)).table, transactionId,
                             TransactionPatchFor(pr, totalAmount)).outcome.Returned?
  {
    var c1 := [UpdateOrderCall(orderId, OrderPatchFor(pr))];
    var uo := p.updateOrder(st, orderId, OrderPatchFor(pr));
    if !Succeeded(uo.outcome) then Attempt(Thrown, uo.table, c1)
    else
      var c2 := c1 + [UpdateTransactionCall(transactionId, TransactionPatchFor(pr, totalAmount))];
      var ut := p.updateTransaction(uo.table, transactionId, TransactionPatchFor(pr, totalAmount));
      if ut.outcome.Thrown? then Attempt(Thrown, ut.table, c2)
      else Attempt(Returned(true), ut.table, c2)
  }

  /** The guards passed: the transaction was found and its order is still
      open. */
  predicate GuardsPass(p: Ports, s: Store, req: Request) {
    var f := p.findOrderByTransactionId(s, req.transactionId);
    f.Returned? && f.value.Ok? && !IsProcessed(f.value.value.order.status)
  }

  /** `updateOrderAndTransaction` as checkout sees it: the unit runs in one
      database transaction, and its exception becomes 'Could not update
      order or transaction' with nothing written; otherwise the payment
      result is the reply. */
  function Record(p: Ports, s: Store, found: TransactionWithOrder, pr: PaymentResult): (r: Run)
    ensures r.outcome.Returned?
    ensures r.outcome.value.Err? ==> r.outcome.value.error == UpdateFailed && r.state == s
    ensures r.outcome.value.Ok? ==> r.outcome.value.value == pr
    ensures 1 <= |r.calls| <= 2 && r.calls[0].UpdateOrderCall?
    ensures |r.calls| == 2 ==>
      r.calls[1].UpdateTransactionCall?
      && (r.calls[1].txPatch.paymentStatus == Success <==> r.calls[0].patch.status == Paid)
    ensures forall i :: 0 <= i < |r.calls| ==> !r.calls[i].ProcessPaymentCall? && !r.calls[i].FindTransaction?
    ensures forall i :: 0 <= i < |r.calls| && r.calls[i].UpdateOrderCall? ==>
      (r.calls[i].patch.status == Paid || r.calls[i].patch.status == OrderStatus.Cancelled)
  {
    var u := Commit(s, Unit(p, s, found.order.id, found.transaction.id, found.order.totalAmount, pr));
    var reply := if u.outcome.Returned? then Returned(Ok(pr)) else Returned(Err(UpdateFailed));
    Attempt(reply, u.state, u.calls)
  }

  /** The payment stage, once the guards passed and the card is valid: one
      call to the payment port, then the recording of its result. */
  function Pay(p: Ports, s: Store, req: Request, found: TransactionWithOrder, card: PaymentMethodCard): (r: Run)
    ensures !(r.outcome.Returned? && r.outcome.value.Ok?) ==> r.state == s
    ensures 1 <= |r.calls| <= 3 && r.calls[0] == ProcessPaymentCall(PaymentRequestFor(card, req, found))
    ensures forall i :: 1 <= i < |r.calls| ==> !r.calls[i].ProcessPaymentCall? && !r.calls[i].FindTransaction?
    ensures forall i :: 0 <= i < |r.calls| && r.calls[i].UpdateOrderCall? ==>
      (r.calls[i].patch.status == Paid || r.calls[i].patch.status == OrderStatus.Cancelled)
  {
    var payment := PaymentRequestFor(card, req, found);
    var log := [ProcessPaymentCall(payment)];
    match p.processPayment(payment)
    case Thrown => Attempt(Returned(Err(PaymentThrew)), s, log)
    case Returned(Err(e)) => Attempt(Returned(Err(e)), s, log)
    case Returned(Ok(pr)) =>
      var u := Record(p, s, found, pr);
      u.(calls := log + u.calls)
  }

  /** `execute(dto)` with `verdict` standing for what `validateCreditCard`
      answers on `dto.creditCard`. The check is pure, so taking its answer
      up front changes nothing, and the lemmas below hold whatever it is. */
  function ExecuteWith(p: Ports, s: Store, req: Request, verdict: Result<PaymentMethodCard, Error>): (r: Run)
    ensures !(r.outcome.Returned? && r.outcome.value.Ok?) ==> r.state == s
    ensures 1 <= |r.calls| <= 4 && r.calls[0] == FindTransaction(req.transactionId)
    ensures forall i :: 0 <= i < |r.calls| && i != 1 ==> !r.calls[i].ProcessPaymentCall?
    ensures |r.calls| > 1 ==>
      GuardsPass(p, s, req) && verdict.Ok?
      && r.calls[1] == ProcessPaymentCall(
           PaymentRequestFor(verdict.value, req, p.findOrderByTransactionId(s, req.transactionId).value.value))
    ensures forall i :: 0 <= i < |r.calls| && r.calls[i].UpdateOrderCall? ==>
      (r.calls[i].patch.status == Paid || r.calls[i].patch.status == OrderStatus.Cancelled)
  {
    var log := [FindTransaction(req.transactionId)];
    match p.findOrderByTransactionId(s, req.transactionId)
    case Thrown => Attempt(Thrown, s, log)
    case Returned(Err(e)) => Attempt(Returned(Err(e)), s, log)
    case Returned(Ok(found)) =>
      if IsProcessed(found.order.status) then Attempt(Returned(Err(OrderAlreadyProcessedError(None))), s, log)
      else match verdict
        case Err(e) => Attempt(Returned(Err(e)), s, log)
        case Ok(card) =>
          var u := Pay(p, s, req, found, card);
          u.(calls := log + u.calls)
  }

  /** `execute(dto)` with the card decoder and the current month given: the
      payment port is reached only past the guards and with the card
      `validateCreditCard` made of `dto.creditCard`; a card it refuses is
      the reply, after the lookup alone and with nothing written. */
  function Execute(p: Ports, decode: string -> Option<RawCard>, now: Clock, s: Store, req: Request): (r: Run)
    ensures !(r.outcome.Returned? && r.outcome.value.Ok?) ==> r.state == s
    ensures 1 <= |r.calls| <= 4 && r.calls[0] == FindTransaction(req.transactionId)
    ensures |r.calls| > 1 ==>
      GuardsPass(p, s, req) && ValidateCreditCard(decode, now, req.creditCard).Ok?
      && r.calls[1] == ProcessPaymentCall(
           PaymentRequestFor(ValidateCreditCard(decode, now, req.creditCard).value, req,
                             p.findOrderByTransactionId(s, req.transactionId).value.value))
    ensures GuardsPass(p, s, req) && ValidateCreditCard(decode, now, req.creditCard).Err? ==>
      r == Attempt(Returned(Err(ValidateCreditCard(decode, now, req.creditCard).error)), s,
                   [FindTransaction(req.transactionId)])
  {
    ExecuteWith(p, s, req, ValidateCreditCard(decode, now, req.creditCard))
  }

  /** The guards come before any card or payment work: a failed lookup is
      the reply as it came, an order already delivered, paid or cancelled is
      refused, and in both cases nothing is called after the lookup and
      nothing is written. */
  lemma GuardsComeFirst(p: Ports, s: Store, req: Request, verdict: Result<PaymentMethodCard, Error>)
    ensures var f := p.findOrderByTransactionId(s, req.transactionId);
      f.Returned? && f.value.Err? ==>
      ExecuteWith(p, s, req, verdict) == Attempt(Returned(Err(f.value.error)), s, [FindTransaction(req.transactionId)])
    ensures var f := p.findOrderByTransactionId(s, req.transactionId);
      f.Returned? && f.value.Ok? && IsProcessed(f.value.value.order.status) ==>
      ExecuteWith(p, s, req, verdict)
        == Attempt(Returned(Err(OrderAlreadyProcessedError(None))), s, [FindTransaction(req.transactionId)])
  {
  }

  /** A card that does not validate is the reply, with its own error, and
      the payment port is not called. */
  lemma CardErrorsStopBeforePayment(p: Ports, s: Store, req: Request, verdict: Result<PaymentMethodCard, Error>)
    requires GuardsPass(p, s, req)
    requires verdict.Err?
    ensures ExecuteWith(p, s, req, verdict) ==
      Attempt(Returned(Err(verdict.error)), s, [FindTransaction(req.transactionId)])
  {
  }

  /** With the guards passed and a valid card, the payment port is called
      exactly once, second, with the normalised card and the order's
      amounts. Its `err` is the reply unchanged; its exception becomes
      'Error procesando el pago'; either way nothing is written. */
  lemma PaymentCalledOnce(p: Ports, s: Store, req: Request, verdict: Result<PaymentMethodCard, Error>)
    requires GuardsPass(p, s, req)
    requires verdict.Ok?
    ensures var found := p.findOrderByTransactionId(s, req.transactionId).value.value;
      var payment := PaymentRequestFor(verdict.value, req, found);
      var r := ExecuteWith(p, s, req, verdict);
      r.calls[1] == ProcessPaymentCall(payment)
      && (p.processPayment(payment).Thrown? ==> r == Attempt(Returned(Err(PaymentThrew)), s, r.calls[..2]))
      && (p.processPayment(payment).Returned? && p.processPayment(payment).value.Err? ==>
            r == Attempt(Returned(Err(p.processPayment(payment).value.error)), s, r.calls[..2]))
  {
  }

  /** After an `ok` payment: the order update comes third with PAID for
      APPROVED and CANCELLED otherwise; if it does not return `ok` the unit
      is discarded and the reply is 'Could not update order or
      transaction'; otherwise the transaction update follows, and unless it
      throws, whatever it answers, the reply is the payment result
      unchanged, APPROVED or not. */
  lemma OutcomeIsRecorded(p: Ports, s: Store, req: Request, verdict: Result<PaymentMethodCard, Error>, pr: PaymentResult)
    requires GuardsPass(p, s, req)
    requires verdict.Ok?
    requires var found := p.findOrderByTransactionId(s, req.transactionId).value.value;
      p.processPayment(PaymentRequestFor(verdict.value, req, found))
        == Returned(Ok(pr))
    ensures var found := p.findOrderByTransactionId(s, req.transactionId).value.value;
      var r := ExecuteWith(p, s, req, verdict);
      var uo := p.updateOrder(s, found.order.id, OrderPatchFor(pr));
      |r.calls| >= 3
      && r.calls[2] == UpdateOrderCall(found.order.id, OrderPatch(NewOrderStatus(pr), pr.createdAt))
      && (!Succeeded(uo.outcome) ==> r == Attempt(Returned(Err(UpdateFailed)), s, r.calls[..3]))
      && (Succeeded(uo.outcome) ==>
            var ut := p.updateTransaction(uo.table, found.transaction.id, TransactionPatchFor(pr, found.order.totalAmount));
            |r.calls| == 4
            && r.calls[3] == UpdateTransactionCall(found.transaction.id, TransactionPatchFor(pr, found.order.totalAmount))
            && (ut.outcome.Thrown? ==> r.outcome == Returned(Err(UpdateFailed)) && r.state == s)
            && (ut.outcome.Returned? ==> r.outcome == Returned(Ok(pr)) && r.state == ut.table))
  {
    var found := p.findOrderByTransactionId(s, req.transactionId).value.value;
    var card := verdict.value;
    var log1 := [FindTransaction(req.transactionId), ProcessPaymentCall(PaymentRequestFor(card, req, found))];
    var u := Record(p, s, found, pr);
    ExecuteReachesRecord(p, s, req, verdict, pr);
    RecordedUnit(p, s, found, pr);
    assert (log1 + u.calls)[..3] == log1 + u.calls[..1];
  }

  /** Past the guards, a valid card and an `ok` payment, `execute` is the
      recording stage behind the lookup and the payment call. */
  lemma ExecuteReachesRecord(p: Ports, s: Store, req: Request, verdict: Result<PaymentMethodCard, Error>, pr: PaymentResult)
    requires GuardsPass(p, s, req)
    requires verdict.Ok?
    requires var found := p.findOrderByTransactionId(s, req.transactionId).value.value;
      p.processPayment(PaymentRequestFor(verdict.value, req, found))
        == Returned(Ok(pr))
    ensures var found := p.findOrderByTransactionId(s, req.transactionId).value.value;
      var card := verdict.value;
      var u := Record(p, s, found, pr);
      ExecuteWith(p, s, req, verdict)
        == u.(calls := [FindTransaction(req.transactionId), ProcessPaymentCall(PaymentRequestFor(card, req, found))] + u.calls)
  {
    var found := p.findOrderByTransactionId(s, req.transactionId).value.value;
    var card := verdict.value;
    var u := Record(p, s, found, pr);
    var v := Pay(p, s, req, found, card);
    assert v == u.(calls := [ProcessPaymentCall(PaymentRequestFor(card, req, found))] + u.calls);
    assert ExecuteWith(p, s, req, verdict) == v.(calls := [FindTransaction(req.transactionId)] + v.calls);
  }

  /** The recording stage on its own: the order update first; a failed one
      discards the unit; otherwise the transaction update follows and only
      its throwing turns the reply into an error. */
  lemma RecordedUnit(p: Ports, s: Store, found: TransactionWithOrder, pr: PaymentResult)
    ensures var r := Record(p, s, found, pr);
      var uo := p.updateOrder(s, found.order.id, OrderPatchFor(pr));
      r.calls[0] == UpdateOrderCall(found.order.id, OrderPatch(NewOrderStatus(pr), pr.createdAt))
      && (!Succeeded(uo.outcome) ==> r == Attempt(Returned(Err(UpdateFailed)), s, r.calls[..1]))
      && (Succeeded(uo.outcome) ==>
            var ut := p.updateTransaction(uo.table, found.transaction.id, TransactionPatchFor(pr, found.order.totalAmount));
            |r.calls| == 2
            && r.calls[1] == UpdateTransactionCall(found.transaction.id, TransactionPatchFor(pr, found.order.totalAmount))
            && (ut.outcome.Thrown? ==> r.outcome == Returned(Err(UpdateFailed)) && r.state == s)
            && (ut.outcome.Returned? ==> r.outcome == Returned(Ok(pr)) && r.state == ut.table))
  {
  }

  /** The status state machine: a checkout only ever moves an order that
      was still open, and only to PAID or CANCELLED; the transaction update
      right after it moves the transaction to SUCCESS exactly when the order
      became PAID. */
  lemma OnlyOpenOrdersMove(p: Ports, s: Store, req: Request, verdict: Result<PaymentMethodCard, Error>)
    ensures var r := ExecuteWith(p, s, req, verdict);
      forall i :: 0 <= i < |r.calls| && r.calls[i].UpdateOrderCall? ==>
        var f := p.findOrderByTransactionId(s, req.transactionId);
        f.Returned? && f.value.Ok? && f.value.value.order.status == OrderStatus.Pending
        && (r.calls[i].patch.status == Paid || r.calls[i].patch.status == OrderStatus.Cancelled)
    ensures var r := ExecuteWith(p, s, req, verdict);
      forall i :: 0 <= i < |r.calls| && r.calls[i].UpdateTransactionCall? ==>
        i >= 1 && r.calls[i - 1].UpdateOrderCall?
        && (r.calls[i].txPatch.paymentStatus == Success <==> r.calls[i - 1].patch.status == Paid)
  {
    var r := ExecuteWith(p, s, req, verdict);
    if |r.calls| > 2 {
      LongRunsPaid(p, s, req, verdict);
      var found := p.findOrderByTransactionId(s, req.transactionId).value.value;
      var card := verdict.value;
      var pr := p.processPayment(PaymentRequestFor(card, req, found)).value.value;
      ExecuteReachesRecord(p, s, req, verdict, pr);
    }
  }

  /** A run that goes past the payment call went through the guards, a
      valid card and an `ok` payment. */
  lemma LongRunsPaid(p: Ports, s: Store, req: Request, verdict: Result<PaymentMethodCard, Error>)
    requires |ExecuteWith(p, s, req, verdict).calls| > 2
    ensures GuardsPass(p, s, req) && verdict.Ok?
    ensures var found := p.findOrderByTransactionId(s, req.transactionId).value.value;
      var o := p.processPayment(PaymentRequestFor(verdict.value, req, found));
      o.Returned? && o.value.Ok?
  {
  }
}

=== FILE: create_order.dfy ===
/** `CreateOrderUseCase.execute`: validate the request, refuse an order id
    that is already stored, read and price the products, check stock, then
    in one unit of work upsert the customer, create the PENDING order and
    its PENDING transaction, and reserve the stock.

    The repositories are ports: a record of functions from the state they
    read to what they answer (and, for writes, the state they leave). A run
    answers with its reply, the state it leaves, and the port calls it made
    in order. */
module CreateOrderUseCase {
  import opened Results
  import opened Errors
  import opened Products
  import opened OrderItems
  import opened Orders
  import opened Transactions
  import opened Customers
  import opened Store
  import opened InventoryRepo
  import opened CustomerRepo
  import opened OrderRepo
  import opened Pricing

  /** `DeliveryDto` */
  datatype Delivery = Delivery(name: string, email: string, address: string, phone: string)

  /** `CreateOrderDto`, with both ids already defaulted; a missing list or
      missing delivery is None. */
  datatype Request = Request(
    orderItems: Option<seq<RequestItem>>,
    orderId: string,
    customerId: string,
    delivery: Option<Delivery>)

  /** The success value: the id the order was stored under, the upserted
      customer's id, and the created transaction. */
  datatype Created = Created(orderId: string, customerId: string, transaction: Transaction)

  /** A port call, with what it was given. */
  datatype Call =
    | LookupOrder(id: string)
    | LookupProducts(ids: seq<ProductId>)
    | CheckStock(items: seq<StockRequest>)
    | UpsertCustomerCall(id: string, data: PrimitiveCustomer)
    | CreateOrderCall(order: PrimitiveOrder)
    | CreateTransactionCall(transaction: PrimitiveTransaction)
    | ReserveStockCall(items: seq<StockRequest>)

  /** The repository methods the use case calls. Reads see the state;
      writes see the state of the unit of work and leave a new one. Any of
      them may throw. */
  datatype Ports = Ports(
    findOrder: (Store, string) -> Outcome<Result<Option<ProcessedOrder>, Error>>,
    findProducts: (Store, seq<ProductId>) -> Outcome<Result<seq<Product>, Error>>,
    checkAvailability: (Store, seq<StockRequest>) -> Outcome<Result<bool, Error>>,
    upsertCustomer: (Store, string, PrimitiveCustomer) -> Step<Customer, Store>,
    createOrder: (Store, PrimitiveOrder) -> Step<string, Store>,
    createTransaction: (Store, PrimitiveTransaction) -> Step<Transaction, Store>,
    reserveStock: (Store, seq<StockRequest>) -> Step<bool, Store>)

  type Run = Attempt<Result<Created, Error>, Store, Call>

  const DeliveryRequired: Error := Error(OrderKind, "delivery info is required", 400)
  const InvalidQuantity: Error := Error(OrderKind, "Invalid quantity in orderItems", 400)
  const OrderFailed: Error := Error(OrderKind, "Order failed, try later", 500)

  // ---- validation

  /** `Number.isInteger(q) && q > 0` */
  predicate IsPositiveInteger(q: real) {
    q == q.Floor as real && q > 0.0
  }

  predicate HasItems(req: Request) {
    req.orderItems.Some? && |req.orderItems.value| > 0
  }

  predicate QuantitiesValid(items: seq<RequestItem>) {
    forall i :: 0 <= i < |items| ==> IsPositiveInteger(items[i].quantity)
  }

  /** The three input checks, in order: items, then delivery, then every
      quantity. */
  function Validate(req: Request): (r: Option<Error>)
    ensures !HasItems(req) <==> r == Some(OrderShouldHaveItemsError(None))
    ensures HasItems(req) && req.delivery.None? <==> r == Some(DeliveryRequired)
    ensures HasItems(req) && req.delivery.Some? && !QuantitiesValid(req.orderItems.value) <==> r == Some(InvalidQuantity)
    ensures r.None? <==> HasItems(req) && req.delivery.Some? && QuantitiesValid(req.orderItems.value)
  {
    if !HasItems(req) then Some(OrderShouldHaveItemsError(None))
    else if req.delivery.None? then Some(DeliveryRequired)
    else if !QuantitiesValid(req.orderItems.value) then Some(InvalidQuantity)
    else None
  }

  // ---- what the ports are given

  function ProductIds(items: seq<RequestItem>): (ids: seq<ProductId>)
    ensures |ids| == |items|
    ensures forall i :: 0 <= i < |items| ==> ids[i] == items[i].productId
  {
    seq(|items|, i requires 0 <= i < |items| => items[i].productId)
  }

  /** The `{ id, quantity }` list checked before pricing. */
  function StockRequests(items: seq<RequestItem>): (reqs: seq<StockRequest>)
    ensures |reqs| == |items|
    ensures forall i :: 0 <= i < |items| ==>
      reqs[i].id == items[i].productId && reqs[i].quantity as real == items[i].quantity.Floor as real
  {
    seq(|items|, i requires 0 <= i < |items| => StockRequest(items[i].productId, items[i].quantity.Floor))
  }

  /** The `{ quantity, id }` list reserved, built from the persisted lines. */
  function ReserveRequests(lines: seq<PrimitiveOrderItem>): (reqs: seq<StockRequest>)
    ensures |reqs| == |lines|
    ensures forall i :: 0 <= i < |lines| ==>
      reqs[i].id == lines[i].productId && reqs[i].quantity == lines[i].quantity.Floor
  {
    seq(|lines|, i requires 0 <= i < |lines| => StockRequest(lines[i].productId, lines[i].quantity.Floor))
  }

  /** The stock reserved is the stock checked: pricing keeps every line's
      product and quantity. */
  lemma ReserveMatchesCheck(items: seq<RequestItem>, products: seq<Product>)
    requires PriceItems(items, products).Some?
    ensures ReserveRequests(PriceItems(items, products).value) == StockRequests(items)
  {
  }

  /** `{ ...delivery, id: customerId }` */
  function CustomerData(customerId: string, d: Delivery): (c: PrimitiveCustomer)
    ensures c.id == customerId && c.name == d.name && c.email == d.email
    ensures c.address == d.address && c.phone == d.phone
  {
    PrimitiveCustomer(customerId, d.name, d.address, d.email, d.phone)
  }

  /** The order written: PENDING, with the priced lines, their sum as base
      fee, the IVA and the rounded total. */
  function OrderPayload(orderId: string, customerId: string, lines: seq<PrimitiveOrderItem>): (o: PrimitiveOrder)
    ensures o.id == Some(orderId) && o.customerId == customerId && o.status == OrderStatus.Pending
    ensures o.orderItem == lines && o.baseFee == BaseFee(lines)
    ensures o.taxFee == TaxFee(o.baseFee) as real && o.totalAmount == TotalAmount(o.baseFee)
    ensures o.paidAt.None?
  {
    var base := BaseFee(lines);
    PrimitiveOrder(Some(orderId), None, customerId, OrderStatus.Pending, base, TaxFee(base) as real,
                   TotalAmount(base), lines, None, None)
  }

  /** The transaction written: PENDING, paid by the delivery name, with the
      order's three amounts. */
  function TransactionPayload(orderId: string, d: Delivery, lines: seq<PrimitiveOrderItem>): (t: PrimitiveTransaction)
    ensures t.orderId == orderId && t.payerName == d.name && t.paymentStatus == TransactionStatus.Pending
    ensures t.baseFee == BaseFee(lines) && t.taxFee == TaxFee(t.baseFee) as real
    ensures t.totalAmount == TotalAmount(t.baseFee)
    ensures t.id.None? && t.payerTransactionId.None? && t.description.None?
  {
    var base := BaseFee(lines);
    PrimitiveTransaction(None, orderId, None, d.name, TotalAmount(base), base, TaxFee(base) as real, None, TransactionStatus.Pending)
  }

  /** The four calls of a unit that got through, in order. */
  predicate UnitCalls(calls: seq<Call>, orderId: string, customerId: string, d: Delivery,
                      lines: seq<PrimitiveOrderItem>, createdId: string)
  {
    calls == [UpsertCustomerCall(customerId, CustomerData(customerId, d)),
              CreateOrderCall(OrderPayload(orderId, customerId, lines)),
              CreateTransactionCall(TransactionPayload(createdId, d, lines)),
              ReserveStockCall(ReserveRequests(lines))]
  }

  // ---- the unit of work

  /** The callback of `runInTransaction`: each step must return `ok`, or the
      unit throws and the steps after it are not called. */
  function Unit(p: Ports, st: Store, orderId: string, customerId: string, d: Delivery,
                lines: seq<PrimitiveOrderItem>): (a: Attempt<Created, Store, Call>)
    ensures 1 <= |a.calls| <= 4
    ensures a.calls[0] == UpsertCustomerCall(customerId, CustomerData(customerId, d))
    ensures a.outcome.Returned? ==> UnitCalls(a.calls, orderId, customerId, d, lines, a.outcome.value.orderId)
    ensures a.outcome.Returned? ==>
      var up := p.upsertCustomer(st, customerId, CustomerData(customerId, d));
      Succeeded(up.outcome) && a.outcome.value.customerId == up.outcome.value.value.id
  {
    var data := CustomerData(customerId, d);
    var c1 := [UpsertCustomerCall(customerId, data)];
    var up := p.upsertCustomer(st, customerId, data);
    if !Succeeded(up.outcome) then Attempt(Thrown, up.table, c1)
    else
      var order := OrderPayload(orderId, customerId, lines);
      var c2 := c1 + [CreateOrderCall(order)];
      var co := p.createOrder(up.table, order);
      if !Succeeded(co.outcome) then Attempt(Thrown, co.table, c2)
      else
        var createdId := co.outcome.value.value;
        var c3 := c2 + [CreateTransactionCall(TransactionPayload(createdId, d, lines))];
        var ct := p.createTransaction(co.table, TransactionPayload(createdId, d, lines));
        if !Succeeded(ct.outcome) then Attempt(Thrown, ct.table, c3)
        else
          var c4 := c3 + [ReserveStockCall(ReserveRequests(lines))];
          var rs := p.reserveStock(ct.table, ReserveRequests(lines));
          if !Succeeded(rs.outcome) then Attempt(Thrown, rs.table, c4)
          else
            Attempt(Returned(Created(createdId, up.outcome.value.value.id, ct.outcome.value.value)), rs.table, c4)
  }

  /** A unit stops at the first step that does not answer `ok`: a call is
      made only when every step before it succeeded, and a unit that throws
      made its failing step last. */
  lemma UnitStopsAtFirstFailure(p: Ports, st: Store, orderId: string, customerId: string, d: Delivery,
                                lines: seq<PrimitiveOrderItem>)
    ensures var a := Unit(p, st, orderId, customerId, d, lines);
      var up := p.upsertCustomer(st, customerId, CustomerData(customerId, d));
      (|a.calls| >= 2 <==> Succeeded(up.outcome))
      && (|a.calls| >= 2 ==>
          var co := p.createOrder(up.table, OrderPayload(orderId, customerId, lines));
          (|a.calls| >= 3 <==> Succeeded(co.outcome))
          && (|a.calls| >= 3 ==>
              var ct := p.createTransaction(co.table, TransactionPayload(co.outcome.value.value, d, lines));
              (|a.calls| == 4 <==> Succeeded(ct.outcome))))
    ensures var a := Unit(p, st, orderId, customerId, d, lines);
      |a.calls| < 4 ==> a.outcome.Thrown?
  {
  }

  /** What a unit that returned answers: the id `createOrder` gave, the id
      the customer was upserted as, and the transaction
      `createTransactionTx` created, each step having answered `ok`. */
  lemma UnitAnswersWhatItCreated(p: Ports, st: Store, orderId: string, customerId: string, d: Delivery,
                                 lines: seq<PrimitiveOrderItem>)
    requires Unit(p, st, orderId, customerId, d, lines).outcome.Returned?
    ensures var up := p.upsertCustomer(st, customerId, CustomerData(customerId, d));
      var co := p.createOrder(up.table, OrderPayload(orderId, customerId, lines));
      Succeeded(up.outcome) && Succeeded(co.outcome)
      && var ct := p.createTransaction(co.table, TransactionPayload(co.outcome.value.value, d, lines));
      Succeeded(ct.outcome)
      && Unit(p, st, orderId, customerId, d, lines).outcome.value
         == Created(co.outcome.value.value, up.outcome.value.value.id, ct.outcome.value.value)
  {
  }

  // ---- execute

  /** The idempotency guard runs only for a non-empty order id (the empty
      string is falsy). */
  function GuardCalls(req: Request): (calls: seq<Call>)
    ensures req.orderId == "" <==> calls == []
  {
    if req.orderId != "" then [LookupOrder(req.orderId)] else []
  }

  /** The guard lets the request through: no lookup, or a lookup that did
      not return `ok` with a value. */
  predicate GuardPasses(p: Ports, s: Store, req: Request) {
    req.orderId == ""
    || (p.findOrder(s, req.orderId).Returned?
        && !(p.findOrder(s, req.orderId).value.Ok? && p.findOrder(s, req.orderId).value.value.Some?))
  }

  /** Everything after the guard, for a validated request. */
  function AfterGuard(p: Ports, s: Store, req: Request, log: seq<Call>): (r: Run)
    requires Validate(req).None?
    ensures !(r.outcome.Returned? && r.outcome.value.Ok?) ==> r.state == s
    ensures |r.calls| > |log| && r.calls[..|log|] == log
    ensures r.calls[|log|] == LookupProducts(ProductIds(req.orderItems.value))
  {
    var items := req.orderItems.value;
    var ids := ProductIds(items);
    var log1 := log + [LookupProducts(ids)];
    match p.findProducts(s, ids)
    case Thrown => Attempt(Thrown, s, log1)
    case Returned(Err(e)) => Attempt(Returned(Err(e)), s, log1)
    case Returned(Ok(products)) =>
      var reqs := StockRequests(items);
      var log2 := log1 + [CheckStock(reqs)];
      match p.checkAvailability(s, reqs)
      case Thrown => Attempt(Thrown, s, log2)
      case Returned(Err(e)) => Attempt(Returned(Err(e)), s, log2)
      case Returned(Ok(_)) =>
        match PriceItems(items, products)
        case None => Attempt(Thrown, s, log2)
        case Some(lines) => Finish(p, s, req, lines, log2)
  }

  /** The transaction step of `execute`: the unit of work runs in a
      transaction and its rejection becomes `OrderFailed`. */
  function Finish(p: Ports, s: Store, req: Request, lines: seq<PrimitiveOrderItem>, log: seq<Call>): (r: Run)
    requires Validate(req).None?
    ensures !(r.outcome.Returned? && r.outcome.value.Ok?) ==> r.state == s
    ensures |r.calls| > |log| && r.calls[..|log|] == log
    ensures r.outcome.Returned? && (r.outcome.value.Err? ==> r.outcome.value.error == OrderFailed)
  {
    var u := Commit(s, Unit(p, s, req.orderId, req.customerId, req.delivery.value, lines));
    var reply := if u.outcome.Returned? then Returned(Ok(u.outcome.value)) else Returned(Err(OrderFailed));
    Attempt(reply, u.state, log + u.calls)
  }

  /** `execute(dto)`. The reply is `Thrown` where the source's promise
      rejects (a port that throws outside the unit, a product missing when
      pricing). */
  function Execute(p: Ports, s: Store, req: Request): (r: Run)
    ensures !(r.outcome.Returned? && r.outcome.value.Ok?) ==> r.state == s
    ensures Validate(req).Some? ==> r == Attempt(Returned(Err(Validate(req).value)), s, [])
    ensures Validate(req).None? ==> |r.calls| >= 1 && r.calls[..|GuardCalls(req)|] == GuardCalls(req)
    ensures Validate(req).None? && !GuardPasses(p, s, req) ==>
      r.state == s && r.calls == GuardCalls(req)
      && (p.findOrder(s, req.orderId).Thrown? ==> r.outcome.Thrown?)
      && (p.findOrder(s, req.orderId).Returned? ==> r.outcome == Returned(Err(OrderAlreadyProcessedError(None))))
    ensures Validate(req).None? && GuardPasses(p, s, req) ==>
      r == AfterGuard(p, s, req, GuardCalls(req))
  {
    match Validate(req)
    case Some(e) => Attempt(Returned(Err(e)), s, [])
    case None =>
      var log := GuardCalls(req);
      if req.orderId == "" then AfterGuard(p, s, req, log)
      else
        match p.findOrder(s, req.orderId)
        case Thrown => Attempt(Thrown, s, log)
        case Returned(prev) =>
          if prev.Ok? && prev.value.Some? then Attempt(Returned(Err(OrderAlreadyProcessedError(None))), s, log)
          else AfterGuard(p, s, req, log)
  }

  /** The guard's `err` answer is ignored: a lookup that fails and one that
      finds nothing lead to the same run. */
  lemma GuardIgnoresLookupErrors(p: Ports, s: Store, req: Request, e: Error,
                                 failing: (Store, string) -> Outcome<Result<Option<ProcessedOrder>, Error>>,
                                 empty: (Store, string) -> Outcome<Result<Option<ProcessedOrder>, Error>>)
    requires failing(s, req.orderId) == Returned(Err(e))
    requires empty(s, req.orderId) == Returned(Ok(None))
    ensures Execute(p.(findOrder := failing), s, req) == Execute(p.(findOrder := empty), s, req)
  {
    if Validate(req).None? {
      AfterGuardIgnoresFindOrder(p.(findOrder := failing), p.(findOrder := empty), s, req, GuardCalls(req));
    }
  }

  /** Nothing after the guard reads `findOrder`. */
  lemma AfterGuardIgnoresFindOrder(p: Ports, q: Ports, s: Store, req: Request, log: seq<Call>)
    requires Validate(req).None?
    requires p.(findOrder := q.findOrder) == q
    ensures AfterGuard(p, s, req, log) == AfterGuard(q, s, req, log)
  {
    var items := req.orderItems.value;
    match p.findProducts(s, ProductIds(items))
    case Thrown =>
    case Returned(Err(e)) =>
    case Returned(Ok(products)) =>
      match p.checkAvailability(s, StockRequests(items))
      case Thrown =>
      case Returned(Err(e)) =>
      case Returned(Ok(_)) =>
        match PriceItems(items, products)
        case None =>
        case Some(lines) =>
          var d := req.delivery.value;
          var f := (st: Store) => Unit(p, st, req.orderId, req.customerId, d, lines);
          var g := (st: Store) => Unit(q, st, req.orderId, req.customerId, d, lines);
          assert f(s) == g(s);
  }

  /** An error from the product lookup or from the stock check is the reply
      as it came, after which nothing is written and no further port is
      called. */
  lemma InventoryErrorsPassThrough(p: Ports, s: Store, req: Request, e: Error)
    requires Validate(req).None? && GuardPasses(p, s, req)
    ensures var ids := ProductIds(req.orderItems.value);
      p.findProducts(s, ids) == Returned(Err(e)) ==>
      Execute(p, s, req) == Attempt(Returned(Err(e)), s, GuardCalls(req) + [LookupProducts(ids)])
    ensures var (ids, reqs) := (ProductIds(req.orderItems.value), StockRequests(req.orderItems.value));
      p.findProducts(s, ids).Returned? && p.findProducts(s, ids).value.Ok?
      && p.checkAvailability(s, reqs) == Returned(Err(e)) ==>
      Execute(p, s, req) == Attempt(Returned(Err(e)), s, GuardCalls(req) + [LookupProducts(ids), CheckStock(reqs)])
  {
    var ids := ProductIds(req.orderItems.value);
    assert GuardCalls(req) + [LookupProducts(ids)] + [CheckStock(StockRequests(req.orderItems.value))]
        == GuardCalls(req) + [LookupProducts(ids), CheckStock(StockRequests(req.orderItems.value))];
  }

  /** Every failure inside the unit, whichever step and whether it returned
      `err` or threw, is the one reply 'Order failed, try later' (500), and
      the state is the one before the unit. */
  lemma UnitFailureIsOrderFailed(p: Ports, s: Store, req: Request, products: seq<Product>)
    requires Validate(req).None? && GuardPasses(p, s, req)
    requires p.findProducts(s, ProductIds(req.orderItems.value)) == Returned(Ok(products))
    requires Succeeded(p.checkAvailability(s, StockRequests(req.orderItems.value)))
    requires PriceItems(req.orderItems.value, products).Some?
    requires Unit(p, s, req.orderId, req.customerId, req.delivery.value,
                  PriceItems(req.orderItems.value, products).value).outcome.Thrown?
    ensures Execute(p, s, req).outcome == Returned(Err(OrderFailed))
    ensures Execute(p, s, req).state == s
  {
  }

  /** A run that succeeds has made the four writes last, in order: the
      customer with the delivery data under the requested customer id, the
      PENDING order under the requested order id, the PENDING transaction
      of the created order paid by the delivery name, and the reservation
      of every line; it answers with the id the customer was upserted as. */
  lemma SuccessfulRunShape(p: Ports, s: Store, req: Request)
    requires Execute(p, s, req).outcome.Returned? && Execute(p, s, req).outcome.value.Ok?
    ensures Validate(req).None? && GuardPasses(p, s, req)
    ensures var r := Execute(p, s, req);
      var c := r.outcome.value.value;
      |r.calls| >= 6
      && r.calls[|r.calls| - 6] == LookupProducts(ProductIds(req.orderItems.value))
      && r.calls[|r.calls| - 5] == CheckStock(StockRequests(req.orderItems.value))
      && var products := p.findProducts(s, ProductIds(req.orderItems.value));
      products.Returned? && products.value.Ok?
      && PriceItems(req.orderItems.value, products.value.value).Some?
      && var lines := PriceItems(req.orderItems.value, products.value.value).value;
      |lines| == |req.orderItems.value|
      && UnitCalls(r.calls[|r.calls| - 4..], req.orderId, req.customerId, req.delivery.value, lines, c.orderId)
    ensures var r := Execute(p, s, req);
      var up := p.upsertCustomer(s, req.customerId, CustomerData(req.customerId, req.delivery.value));
      Succeeded(up.outcome) && r.outcome.value.value.customerId == up.outcome.value.value.id
  {
    var r := Execute(p, s, req);
    var items := req.orderItems.value;
    var log := GuardCalls(req);
    assert r == AfterGuard(p, s, req, log);
    var log1 := log + [LookupProducts(ProductIds(items))];
    var products := p.findProducts(s, ProductIds(items)).value.value;
    var log2 := log1 + [CheckStock(StockRequests(items))];
    var lines := PriceItems(items, products).value;
    var u := Commit(s, Unit(p, s, req.orderId, req.customerId, req.delivery.value, lines));
    assert r.calls == log2 + u.calls;
    assert r.calls[|r.calls| - 4..] == u.calls;
  }

  // ---- the repositories over the store

  /** Where the database throws, and the keys it generates. `reserve` is the
      index of the reservation statement that throws, if any. */
  datatype Faults = Faults(
    upsert: bool,
    createOrder: bool,
    freshOrderId: string,
    createTransaction: bool,
    freshTransactionId: string,
    reserve: Option<nat>)

  /** The transaction repository as a plain store: a new transaction is
      appended under a generated id and returned; a fault makes it throw. */
  function CreateTransactionRow(s: Store, payload: PrimitiveTransaction, freshId: string, fault: bool): (st: Step<Transaction, Store>)
    ensures !fault ==> st.outcome == Returned(Ok(Transaction.FromPrimitive(payload.(id := Some(freshId)))))
    ensures !fault ==> st.table == s.(transactions := s.transactions + [st.outcome.value.value])
    ensures fault ==> st.outcome.Thrown?
  {
    if fault then Step(Thrown, s)
    else
      var t := Transaction.FromPrimitive(payload.(id := Some(freshId)));
      Step(Returned(Ok(t)), s.(transactions := s.transactions + [t]))
  }

  /** The ports as the database repositories implement them. */
  function StorePorts(f: Faults): Ports {
    Ports(
      (s: Store, id: string) => Returned(FindByIdIfProcessed(s, id)),
      (s: Store, ids: seq<ProductId>) => Returned(FindProductsById(s.products, ids)),
      (s: Store, reqs: seq<StockRequest>) => CheckAvailability(s.products, reqs),
      (s: Store, id: string, data: PrimitiveCustomer) =>
        var (r, rows) := Upsert(s.customers, id, data, f.upsert);
        Step(Returned(r), s.(customers := rows)),
      (s: Store, o: PrimitiveOrder) =>
        var (r, orders) := CreateOrder(s.orders, o, f.freshOrderId, f.createOrder);
        Step(Returned(r), s.(orders := orders)),
      (s: Store, t: PrimitiveTransaction) => CreateTransactionRow(s, t, f.freshTransactionId, f.createTransaction),
      (s: Store, reqs: seq<StockRequest>) =>
        var (r, products) := ReserveStock(s.products, reqs, f.reserve);
        Step(Returned(r), s.(products := products)))
  }

  /** A unit over the store that gets through leaves the upserted customers,
      the new order under the requested id, one more transaction and the
      reserved stock, each written by its own repository. */
  lemma StoreUnitEffect(f: Faults, st: Store, orderId: string, customerId: string, d: Delivery,
                        lines: seq<PrimitiveOrderItem>)
    requires Unit(StorePorts(f), st, orderId, customerId, d, lines).outcome.Returned?
    ensures var a := Unit(StorePorts(f), st, orderId, customerId, d, lines);
      a.outcome.value.orderId == orderId
      && orderId !in st.orders
      && a.state.customers == Upsert(st.customers, customerId, CustomerData(customerId, d), f.upsert).1
      && a.state.orders == st.orders[orderId := StoredRow(OrderPayload(orderId, customerId, lines))]
      && a.state.transactions == st.transactions + [a.outcome.value.transaction]
      && a.state.products == ReserveStock(st.products, ReserveRequests(lines), f.reserve).1
      && ReserveStock(st.products, ReserveRequests(lines), f.reserve).0.Ok?
  {
    var p := StorePorts(f);
    var data := CustomerData(customerId, d);
    var up := p.upsertCustomer(st, customerId, data);
    assert up.table == st.(customers := Upsert(st.customers, customerId, data, f.upsert).1);
    var order := OrderPayload(orderId, customerId, lines);
    var co := p.createOrder(up.table, order);
    assert co.table == up.table.(orders := CreateOrder(st.orders, order, f.freshOrderId, f.createOrder).1);
    var ct := p.createTransaction(co.table, TransactionPayload(orderId, d, lines));
    var rs := p.reserveStock(ct.table, ReserveRequests(lines));
    assert rs.table == ct.table.(products := ReserveStock(st.products, ReserveRequests(lines), f.reserve).1);
  }

  /** For any ports, the promise rejects only where a read throws (the
      order lookup, the product lookup, the stock check) or where pricing
      meets a product the lookup did not answer; the unit never makes it
      reject. */
  lemma OnlyReadsReject(p: Ports, s: Store, req: Request)
    ensures Execute(p, s, req).outcome.Thrown? ==>
      Validate(req).None?
      && ((req.orderId != "" && p.findOrder(s, req.orderId).Thrown?)
          || (GuardPasses(p, s, req) && ReadRejects(p, s, req.orderItems.value)))
  {
  }

  /** A read after the guard throws, or pricing misses a product. */
  predicate ReadRejects(p: Ports, s: Store, items: seq<RequestItem>) {
    var found := p.findProducts(s, ProductIds(items));
    found.Thrown?
    || (found.value.Ok?
        && var checked := p.checkAvailability(s, StockRequests(items));
        checked.Thrown? || (checked.value.Ok? && PriceItems(items, found.value.value).None?))
  }

  /** Over the store the promise never rejects: the lookups do not throw,
      the stock check only throws for a product the lookup would already
      have refused, and every priced product is among those read. */
  lemma StoreRunsNeverReject(f: Faults, s: Store, req: Request)
    ensures Execute(StorePorts(f), s, req).outcome.Returned?
  {
    OnlyReadsReject(StorePorts(f), s, req);
    if Validate(req).None? {
      StoreReadsSucceed(f, s, req.orderItems.value);
    }
  }

  /** Over the store the reads after the guard do not reject: a product
      lookup that answers has found every requested id, so the stock check
      answers and every line is priced. */
  lemma StoreReadsSucceed(f: Faults, s: Store, items: seq<RequestItem>)
    ensures !ReadRejects(StorePorts(f), s, items)
  {
    var p := StorePorts(f);
    var ids := ProductIds(items);
    var found := FindProductsById(s.products, ids);
    assert p.findProducts(s, ids) == Returned(found);
    if found.Ok? {
      var reqs := StockRequests(items);
      assert p.checkAvailability(s, reqs) == CheckAvailability(s.products, reqs);
      assert forall k :: 0 <= k < |reqs| ==> reqs[k].id in s.products by {
        forall k | 0 <= k < |reqs| ensures reqs[k].id in s.products {
          assert ids[k] in s.products;
        }
      }
      assert CheckAvailability(s.products, reqs).Returned?;
      forall i | 0 <= i < |items| ensures FindProduct(found.value, items[i].productId).Some? {
        assert found.value[i].id == Some(items[i].productId);
      }
      assert AllPriced(items, found.value);
    }
  }

  /** Over the store, every run keeps all stock levels non-negative,
      whatever it is asked and wherever the database throws. */
  lemma StoreRunsKeepStockNonNegative(f: Faults, s: Store, req: Request)
    requires StocksNonNegative(s.products)
    ensures StocksNonNegative(Execute(StorePorts(f), s, req).state.products)
  {
    var r := Execute(StorePorts(f), s, req);
    if r.outcome.Returned? && r.outcome.value.Ok? {
      var items := req.orderItems.value;
      var products := FindProductsById(s.products, ProductIds(items)).value;
      var lines := PriceItems(items, products).value;
      var d := req.delivery.value;
      assert r.state == Unit(StorePorts(f), s, req.orderId, req.customerId, d, lines).state;
      StoreUnitEffect(f, s, req.orderId, req.customerId, d, lines);
    }
  }

  /** Over the store, an order created under a non-empty id cannot be
      created again: the same request, repeated, is refused as already
      processed, and the repeat writes nothing. */
  lemma StoreRepeatIsRefused(f: Faults, g: Faults, s: Store, req: Request)
    requires req.orderId != ""
    requires Execute(StorePorts(f), s, req).outcome.Returned?
    requires Execute(StorePorts(f), s, req).outcome.value.Ok?
    ensures var s' := Execute(StorePorts(f), s, req).state;
      Execute(StorePorts(g), s', req) == Attempt(Returned(Err(OrderAlreadyProcessedError(None))), s', [LookupOrder(req.orderId)])
  {
    var s' := Execute(StorePorts(f), s, req).state;
    var products, lines := StoreSuccess(f, s, req);
    assert FindByIdIfProcessed(s', req.orderId).value.Some?;
    assert !GuardPasses(StorePorts(g), s', req);
  }

  /** What a successful run over the store went through: the products it
      read, the lines it priced, and the state its unit left. */
  lemma StoreSuccess(f: Faults, s: Store, req: Request) returns (products: seq<Product>, lines: seq<PrimitiveOrderItem>)
    requires Execute(StorePorts(f), s, req).outcome.Returned?
    requires Execute(StorePorts(f), s, req).outcome.value.Ok?
    ensures Validate(req).None?
    ensures FindProductsById(s.products, ProductIds(req.orderItems.value)) == Ok(products)
    ensures PriceItems(req.orderItems.value, products) == Some(lines)
    ensures var s' := Execute(StorePorts(f), s, req).state;
      req.orderId in s'.orders && s'.orders[req.orderId].items == lines
      && s'.orders[req.orderId].status == OrderStatus.Pending
      && s'.products == ReserveStock(s.products, ReserveRequests(lines), f.reserve).1
    ensures ReserveStock(s.products, ReserveRequests(lines), f.reserve).0.Ok?
  {
    var r := Execute(StorePorts(f), s, req);
    var items := req.orderItems.value;
    products := FindProductsById(s.products, ProductIds(items)).value;
    lines := PriceItems(items, products).value;
    var d := req.delivery.value;
    assert r.state == Unit(StorePorts(f), s, req.orderId, req.customerId, d, lines).state;
    StoreUnitEffect(f, s, req.orderId, req.customerId, d, lines);
  }

  /** Lines priced from the products the lookup read from a table carry
      that table's prices. */
  lemma LinesPricedFromTable(t: ProductTable, items: seq<RequestItem>, products: seq<Product>, lines: seq<PrimitiveOrderItem>)
    requires |products| == |items|
    requires forall k :: 0 <= k < |items| ==>
      items[k].productId in t && products[k] == ToProduct(items[k].productId, t[items[k].productId])
    requires PriceItems(items, products) == Some(lines)
    ensures |lines| == |items|
    ensures forall i :: 0 <= i < |items| ==>
      items[i].productId in t
      && lines[i].productId == items[i].productId && lines[i].quantity == items[i].quantity
      && lines[i].unitPrice == t[items[i].productId].price
  {
    var ids := ProductIds(items);
    forall i | 0 <= i < |items|
      ensures items[i].productId in t
      ensures lines[i].productId == items[i].productId && lines[i].quantity == items[i].quantity
      ensures lines[i].unitPrice == t[items[i].productId].price
    {
      var p := FindProduct(products, items[i].productId).value;
      assert lines[i] == PriceLine(items[i], p);
      FoundProductHasStoredPrice(t, ids, products, items[i].productId);
    }
  }

  /** In what the lookup read, the first product with an id is that id's
      row of the table. */
  lemma {:induction false} FoundProductHasStoredPrice(t: ProductTable, ids: seq<ProductId>, products: seq<Product>, id: ProductId)
    requires |products| == |ids|
    requires forall k :: 0 <= k < |ids| ==> ids[k] in t && products[k] == ToProduct(ids[k], t[ids[k]])
    requires FindProduct(products, id).Some?
    ensures id in t && FindProduct(products, id).value.price == t[id].price
    decreases |ids|
  {
    if products[0].id != Some(id) {
      assert forall k :: 1 <= k < |ids| ==> ids[1..][k - 1] == ids[k] && products[1..][k - 1] == products[k];
      FoundProductHasStoredPrice(t, ids[1..], products[1..], id);
    }
  }

  /** Over the store, a successful order is stored PENDING under the
      requested id, each of its lines priced at the stored price of its
      product before the run. */
  lemma StoreRunPricesFromStock(f: Faults, s: Store, req: Request)
    requires Execute(StorePorts(f), s, req).outcome.Returned?
    requires Execute(StorePorts(f), s, req).outcome.value.Ok?
    ensures var s' := Execute(StorePorts(f), s, req).state;
      var items := req.orderItems.value;
      req.orderId in s'.orders && s'.orders[req.orderId].status == OrderStatus.Pending
      && |s'.orders[req.orderId].items| == |items|
      && forall i :: 0 <= i < |items| ==>
           var line := s'.orders[req.orderId].items[i];
           items[i].productId in s.products
           && line.productId == items[i].productId && line.quantity == items[i].quantity
           && line.unitPrice == s.products[items[i].productId].price
  {
    var products, lines := StoreSuccess(f, s, req);
    var items := req.orderItems.value;
    var ids := ProductIds(items);
    var s' := Execute(StorePorts(f), s, req).state;
    var row := s'.orders[req.orderId];
    LookupReadsRows(s.products, items, products);
    LinesPricedFromTable(s.products, items, products, lines);
    assert |row.items| == |items|;
    forall i | 0 <= i < |items|
      ensures items[i].productId in s.products
      ensures row.items[i].productId == items[i].productId && row.items[i].quantity == items[i].quantity
      ensures row.items[i].unitPrice == s.products[items[i].productId].price
    {
      assert row.items[i] == lines[i];
    }
  }

  /** The product lookup answers, position by position, the rows of the
      requested ids. */
  lemma LookupReadsRows(t: ProductTable, items: seq<RequestItem>, products: seq<Product>)
    requires FindProductsById(t, ProductIds(items)) == Ok(products)
    ensures |products| == |items|
    ensures forall k :: 0 <= k < |items| ==>
      items[k].productId in t && products[k] == ToProduct(items[k].productId, t[items[k].productId])
  {
    var ids := ProductIds(items);
    assert forall k :: 0 <= k < |items| ==> ids[k] == items[k].productId;
  }


  /** The products the lookup answers have distinct ids, so the lines are
      priced the same for any order of those rows, the database's included. */
  lemma LookupOrderIsIrrelevant(t: ProductTable, items: seq<RequestItem>, products: seq<Product>, rows: seq<Product>)
    requires FindProductsById(t, ProductIds(items)) == Ok(products)
    requires DistinctProductIds(rows) && forall p :: p in rows <==> p in products
    ensures DistinctProductIds(products)
    ensures PriceItems(items, rows) == PriceItems(items, products)
  {
    var ids := ProductIds(items);
    assert forall k :: 0 <= k < |products| ==> products[k].id == Some(ids[k]);
    PriceItemsIgnoresOrder(items, rows, products);
  }

  /** Over the store, with no database fault in the reservation, a
      successful run lowers each product's stock by the quantity ordered of
      it (lines of the same product add up) and leaves the rest alone. */
  lemma StoreRunReservesDemand(f: Faults, s: Store, req: Request)
    requires f.reserve.None?
    requires Execute(StorePorts(f), s, req).outcome.Returned?
    requires Execute(StorePorts(f), s, req).outcome.value.Ok?
    ensures var s' := Execute(StorePorts(f), s, req).state;
      forall id :: id in s.products ==>
        id in s'.products && s'.products[id].stock == s.products[id].stock - Demand(StockRequests(req.orderItems.value), id)
  {
    var products, lines := StoreSuccess(f, s, req);
    var items := req.orderItems.value;
    var reqs := StockRequests(items);
    assert ReserveRequests(lines) == reqs by { ReserveMatchesCheck(items, products); }
    assert NonNegativeQuantities(reqs) by {
      forall k | 0 <= k < |reqs| ensures reqs[k].quantity >= 0 {
        assert IsPositiveInteger(items[k].quantity);
      }
    }
    ReserveStockSpec(s.products, reqs);
    var s' := Execute(StorePorts(f), s, req).state;
    var after := ReserveStock(s.products, reqs, None).1;
    assert s'.products == after;
    forall id | id in s.products
      ensures id in s'.products && s'.products[id].stock == s.products[id].stock - Demand(reqs, id)
    {
      assert after[id].stock == s.products[id].stock - Demand(reqs, id);
    }
  }
}

=== FILE: customer.dfy ===
/** Customers: the primitive record (which has a phone) and the entity
    (which does not keep it). */
module Customers {
  import opened Results

  datatype PrimitiveCustomer = PrimitiveCustomer(
    id: string,
    name: string,
    address: string,
    email: string,
    phone: string)

  /** Both projections: `phone` is `undefined` (None) because the entity never
      stores it. */
  datatype CustomerJson = CustomerJson(
    id: string,
    address: string,
    email: string,
    name: string,
    phone: Option<string>)

  datatype Customer = Customer(id: string, name: string, address: string, email: string) {
    /** `new Customer(p)`: id, name, address and email; the phone is dropped. */
    static function FromPrimitive(p: PrimitiveCustomer): (r: Customer)
      ensures r.ToApiJson() == CustomerJson(p.id, p.address, p.email, p.name, None)
    {
      Customer(p.id, p.name, p.address, p.email)
    }

    /** `toJson()` is the same record as `toApiJson()`. */
    function ToJson(): (r: CustomerJson)
      ensures r == ToApiJson()
    {
      CustomerJson(id, address, email, name, None)
    }

    /** `toApiJson()`: the four stored fields, from which the customer can be
        rebuilt, and no phone. */
    function ToApiJson(): (r: CustomerJson)
      ensures Customer(r.id, r.name, r.address, r.email) == this && r.phone.None?
    {
      CustomerJson(id, address, email, name, None)
    }
  }

  /** `toJson(new Customer(p))` agrees with `p` on id, name, address and email,
      reports no phone, and `toJson` and `toApiJson` coincide. */
  lemma JsonRoundTrip(p: PrimitiveCustomer, c: Customer)
    ensures var j := Customer.FromPrimitive(p).ToJson();
      j.id == p.id && j.name == p.name && j.address == p.address && j.email == p.email
      && j.phone == None
    ensures c.ToJson() == c.ToApiJson()
    ensures Customer.FromPrimitive(p) == Customer.FromPrimitive(p.(phone := ""))
  {
  }
}

=== FILE: customer_repo.dfy ===
/** The customer repository over the customer table (rows in table order,
    since the upsert reads the first row that matches). */
module CustomerRepo {
  import opened Results
  import opened Errors
  import opened Customers
  import opened Store

  /** What `upsertByIdOrEmailTx` returns when a statement throws. */
  const UpsertFailure: Error := Error(CustomerKind, "Error creating a client", 400)

  /** The `OR: [{ id }, { email: data.email }]` filter. */
  predicate Matches(row: PrimitiveCustomer, id: string, email: string) {
    row.id == id || row.email == email
  }

  /** `findFirst`: the index of the first matching row, if any. */
  function FirstMatch(rows: CustomerTable, id: string, email: string): (r: Option<nat>)
    ensures r.Some? ==> r.value < |rows| && Matches(rows[r.value], id, email)
    ensures r.Some? ==> forall j :: 0 <= j < r.value ==> !Matches(rows[j], id, email)
    ensures r.None? ==> forall j :: 0 <= j < |rows| ==> !Matches(rows[j], id, email)
    decreases |rows|
  {
    if |rows| == 0 then None
    else if Matches(rows[0], id, email) then Some(0)
    else match FirstMatch(rows[1..], id, email)
      case None => None
      case Some(k) => Some(k + 1)
  }

  predicate HasId(rows: CustomerTable, id: string) {
    exists j :: 0 <= j < |rows| && rows[j].id == id
  }

  /** Overwriting the first matching row with `data` would give it an id
      that another row already has. */
  predicate KeyClash(rows: CustomerTable, id: string, data: PrimitiveCustomer) {
    var m := FirstMatch(rows, id, data.email);
    m.Some? && data.id != rows[m.value].id && HasId(rows, data.id)
  }

  ghost predicate UniqueIds(rows: CustomerTable) {
    forall i, j :: 0 <= i < j < |rows| ==> rows[i].id != rows[j].id
  }

  /** `upsertByIdOrEmailTx(id, data)`: the first row whose id is `id` or whose
      email is `data.email` is overwritten with `data` (no row is added);
      with no such row, `data` is inserted under `id`. The record written is
      the one returned. Statements that throw end in `UpsertFailure` with
      nothing written: `fault`, or an update that would give the matched row
      an id another row already has (a primary-key violation). */
  function Upsert(rows: CustomerTable, id: string, data: PrimitiveCustomer, fault: bool): (r: (Result<Customer, Error>, CustomerTable))
    ensures r.0.Ok? <==> !fault && !KeyClash(rows, id, data)
    ensures r.0.Err? ==> r.0.error == UpsertFailure && r.1 == rows
    ensures r.0.Ok? && FirstMatch(rows, id, data.email).Some? ==>
      var i := FirstMatch(rows, id, data.email).value;
      r.1 == rows[i := data] && r.0.value == Customer.FromPrimitive(data)
    ensures r.0.Ok? && FirstMatch(rows, id, data.email).None? ==>
      r.1 == rows + [data.(id := id)] && r.0.value == Customer.FromPrimitive(data.(id := id))
    ensures UniqueIds(rows) ==> UniqueIds(r.1)
  {
    if fault then (Err(UpsertFailure), rows)
    else match FirstMatch(rows, id, data.email)
      case Some(i) =>
        if data.id != rows[i].id && HasId(rows, data.id) then (Err(UpsertFailure), rows)
        else (Ok(Customer.FromPrimitive(data)), rows[i := data])
      case None =>
        (Ok(Customer.FromPrimitive(data.(id := id))), rows + [data.(id := id)])
  }

  /** Upserting with the same id and record twice changes nothing the second
      time: a repeat checkout never creates a second customer. */
  lemma UpsertIdempotent(rows: CustomerTable, data: PrimitiveCustomer)
    requires Upsert(rows, data.id, data, false).0.Ok?
    ensures var rows' := Upsert(rows, data.id, data, false).1;
      Upsert(rows', data.id, data, false) == (Ok(Customer.FromPrimitive(data)), rows')
  {
    var id := data.id;
    var rows' := Upsert(rows, id, data, false).1;
    match FirstMatch(rows, id, data.email)
    case Some(i) =>
      assert rows'[i] == data;
      assert forall j :: 0 <= j < i ==> rows'[j] == rows[j];
      assert FirstMatch(rows', id, data.email) == Some(i) by {
        FirstMatchIsFirst(rows', id, data.email, i);
      }
      assert rows'[i := data] == rows';
    case None =>
      assert data.(id := id) == data;
      assert rows'[|rows|] == data;
      assert forall j :: 0 <= j < |rows| ==> rows'[j] == rows[j];
      assert FirstMatch(rows', id, data.email) == Some(|rows|) by {
        FirstMatchIsFirst(rows', id, data.email, |rows|);
      }
      assert rows'[|rows| := data] == rows';
  }

  /** `FirstMatch` is determined by the first matching position. */
  lemma FirstMatchIsFirst(rows: CustomerTable, id: string, email: string, i: nat)
    requires i < |rows| && Matches(rows[i], id, email)
    requires forall j :: 0 <= j < i ==> !Matches(rows[j], id, email)
    ensures FirstMatch(rows, id, email) == Some(i)
  {
  }

  /** `getByEmail`: a stub that answers `ok(null)` whatever is stored. */
  function GetByEmail(rows: CustomerTable, email: string): (r: Result<Option<Customer>, Error>)
    ensures r == Ok(None)
  {
    Ok(None)
  }

  /** `getById`: a stub that answers `ok(null)` whatever is stored. */
  function GetById(rows: CustomerTable, id: string): (r: Result<Option<Customer>, Error>)
    ensures r == Ok(None)
  {
    Ok(None)
  }

  /** The lookups do not find a customer the upsert has just stored. */
  lemma LookupsMissStoredCustomer(rows: CustomerTable, data: PrimitiveCustomer)
    requires Upsert(rows, data.id, data, false).0.Ok?
    ensures var rows' := Upsert(rows, data.id, data, false).1;
      data in rows' && GetByEmail(rows', data.email) == Ok(None) && GetById(rows', data.id) == Ok(None)
  {
    var rows' := Upsert(rows, data.id, data, false).1;
    match FirstMatch(rows, data.id, data.email)
    case Some(i) =>
      assert rows'[i] == data;
    case None =>
      assert data.(id := data.id) == data;
      assert rows'[|rows|] == data;
  }
}

=== FILE: errors.dfy ===
/** The error records of the five bounded contexts. Every error is a record of
    a kind, a message and an HTTP-like status code; each named constructor has
    a fixed kind, default message and status, and an optional message that
    replaces the default. */
module Errors {
  import opened Results

  datatype Kind = OrderKind | PaymentKind | InventoryKind | TransactionKind | CustomerKind {
    /** The `kind` tag as written in the source records. */
    function Tag(): string {
      match this
      case OrderKind => "order"
      case PaymentKind => "payment"
      case InventoryKind => "inventory"
      case TransactionKind => "transaction"
      case CustomerKind => "customer"
    }
  }

  datatype Error = Error(kind: Kind, message: string, statusCode: int)

  /** The shape shared by every constructor: `messageError ?? default`. */
  function Make(kind: Kind, statusCode: int, default: string, message: Option<string>): (e: Error)
    ensures e.kind == kind && e.statusCode == statusCode
    ensures message.Some? ==> e.message == message.value
    ensures message.None? ==> e.message == default
  {
    Error(kind, message.GetOr(default), statusCode)
  }

  // ---- order.exception.ts

  function OrderNotFoundError(message: Option<string>): (e: Error)
    ensures e.kind == OrderKind && e.statusCode == 404
    ensures e.message == message.GetOr("Order Not Found")
  {
    Make(OrderKind, 404, "Order Not Found", message)
  }

  function OrderShouldHaveItemsError(message: Option<string>): (e: Error)
    ensures e.kind == OrderKind && e.statusCode == 400
    ensures e.message == message.GetOr("The order must have at least one item")
  {
    Make(OrderKind, 400, "The order must have at least one item", message)
  }

  function OrderAlreadyProcessedError(message: Option<string>): (e: Error)
    ensures e.kind == OrderKind && e.statusCode == 400
    ensures e.message == message.GetOr("The order already processed")
  {
    Make(OrderKind, 400, "The order already processed", message)
  }

  function OrderGenericError(message: Option<string>): (e: Error)
    ensures e.kind == OrderKind && e.statusCode == 400
    ensures e.message == message.GetOr("The order has an error")
  {
    Make(OrderKind, 400, "The order has an error", message)
  }

  // ---- payment.exceptions.ts

  function PaymentNotFoundError(message: Option<string>): (e: Error)
    ensures e.kind == PaymentKind && e.statusCode == 404
    ensures e.message == message.GetOr("payment Not Found")
  {
    Make(PaymentKind, 404, "payment Not Found", message)
  }

  function PaymentCreditCardError(message: Option<string>): (e: Error)
    ensures e.kind == PaymentKind && e.statusCode == 402
    ensures e.message == message.GetOr("We had problems with your paymethod, try again")
  {
    Make(PaymentKind, 402, "We had problems with your paymethod, try again", message)
  }

  function PaymentGenericError(message: Option<string>): (e: Error)
    ensures e.kind == PaymentKind && e.statusCode == 402
    ensures e.message == message.GetOr("The payment already processed")
  {
    Make(PaymentKind, 402, "The payment already processed", message)
  }

  // ---- inventory.exceptions.ts

  function ProductNotFoundError(message: Option<string>): (e: Error)
    ensures e.kind == InventoryKind && e.statusCode == 404
    ensures e.message == message.GetOr("Product Not Found")
  {
    Make(InventoryKind, 404, "Product Not Found", message)
  }

  function ProductWithoutStockError(message: Option<string>): (e: Error)
    ensures e.kind == InventoryKind && e.statusCode == 400
    ensures e.message == message.GetOr("Product Without Stock")
  {
    Make(InventoryKind, 400, "Product Without Stock", message)
  }

  function ProductsWithoutStockOrNotExistError(message: Option<string>): (e: Error)
    ensures e.kind == InventoryKind && e.statusCode == 404
    ensures e.message == message.GetOr("Some products do not exist or are out of stock")
  {
    Make(InventoryKind, 404, "Some products do not exist or are out of stock", message)
  }

  // ---- transactionException.ts

  function TransactionNotFoundError(message: Option<string>): (e: Error)
    ensures e.kind == TransactionKind && e.statusCode == 404
    ensures e.message == message.GetOr("Transaction Not Found")
  {
    Make(TransactionKind, 404, "Transaction Not Found", message)
  }

  function TransactionAlreadyProcessedError(message: Option<string>): (e: Error)
    ensures e.kind == TransactionKind && e.statusCode == 400
    ensures e.message == message.GetOr("The Transaction already processed")
  {
    Make(TransactionKind, 400, "The Transaction already processed", message)
  }

  function TransactionGenericError(message: Option<string>): (e: Error)
    ensures e.kind == TransactionKind && e.statusCode == 400
    ensures e.message == message.GetOr("The Transaction ")
  {
    Make(TransactionKind, 400, "The Transaction ", message)
  }

  // ---- customer.exceptions.ts

  function CustomerNotFoundError(message: Option<string>): (e: Error)
    ensures e.kind == CustomerKind && e.statusCode == 404
    ensures e.message == message.GetOr("Customer Not Found")
  {
    Make(CustomerKind, 404, "Customer Not Found", message)
  }

  function CustomerAlreadyExistError(message: Option<string>): (e: Error)
    ensures e.kind == CustomerKind && e.statusCode == 400
    ensures e.message == message.GetOr("User Already Register")
  {
    Make(CustomerKind, 400, "User Already Register", message)
  }

  function CustomerAlreadyProcessedError(message: Option<string>): (e: Error)
    ensures e.kind == CustomerKind && e.statusCode == 400
    ensures e.message == message.GetOr("The order already processed")
  {
    Make(CustomerKind, 400, "The order already processed", message)
  }

  /** A supplied message only replaces the text: for every constructor, kind
      and status code are the same with and without it. */
  lemma MessageOverrideKeepsKindAndStatus(m: string)
    ensures var (a, b) := (OrderNotFoundError(Some(m)), OrderNotFoundError(None));
      a.message == m && a.kind == b.kind && a.statusCode == b.statusCode
    ensures var (a, b) := (OrderShouldHaveItemsError(Some(m)), OrderShouldHaveItemsError(None));
      a.message == m && a.kind == b.kind && a.statusCode == b.statusCode
    ensures var (a, b) := (OrderAlreadyProcessedError(Some(m)), OrderAlreadyProcessedError(None));
      a.message == m && a.kind == b.kind && a.statusCode == b.statusCode
    ensures var (a, b) := (OrderGenericError(Some(m)), OrderGenericError(None));
      a.message == m && a.kind == b.kind && a.statusCode == b.statusCode
    ensures var (a, b) := (PaymentNotFoundError(Some(m)), PaymentNotFoundError(None));
      a.message == m && a.kind == b.kind && a.statusCode == b.statusCode
    ensures var (a, b) := (PaymentCreditCardError(Some(m)), PaymentCreditCardError(None));
      a.message == m && a.kind == b.kind && a.statusCode == b.statusCode
    ensures var (a, b) := (PaymentGenericError(Some(m)), PaymentGenericError(None));
      a.message == m && a.kind == b.kind && a.statusCode == b.statusCode
    ensures var (a, b) := (ProductNotFoundError(Some(m)), ProductNotFoundError(None));
      a.message == m && a.kind == b.kind && a.statusCode == b.statusCode
    ensures var (a, b) := (ProductWithoutStockError(Some(m)), ProductWithoutStockError(None));
      a.message == m && a.kind == b.kind && a.statusCode == b.statusCode
    ensures var (a, b) := (ProductsWithoutStockOrNotExistError(Some(m)), ProductsWithoutStockOrNotExistError(None));
      a.message == m && a.kind == b.kind && a.statusCode == b.statusCode
    ensures var (a, b) := (TransactionNotFoundError(Some(m)), TransactionNotFoundError(None));
      a.message == m && a.kind == b.kind && a.statusCode == b.statusCode
    ensures var (a, b) := (TransactionAlreadyProcessedError(Some(m)), TransactionAlreadyProcessedError(None));
      a.message == m && a.kind == b.kind && a.statusCode == b.statusCode
    ensures var (a, b) := (TransactionGenericError(Some(m)), TransactionGenericError(None));
      a.message == m && a.kind == b.kind && a.statusCode == b.statusCode
    ensures var (a, b) := (CustomerNotFoundError(Some(m)), CustomerNotFoundError(None));
      a.message == m && a.kind == b.kind && a.statusCode == b.statusCode
    ensures var (a, b) := (CustomerAlreadyExistError(Some(m)), CustomerAlreadyExistError(None));
      a.message == m && a.kind == b.kind && a.statusCode == b.statusCode
    ensures var (a, b) := (CustomerAlreadyProcessedError(Some(m)), CustomerAlreadyProcessedError(None));
      a.message == m && a.kind == b.kind && a.statusCode == b.statusCode
  {
  }
}

=== FILE: inventory_repo.dfy ===
/** The inventory repository over the product table: conditional stock
    reservation, the read-only availability pre-check, and product lookups. */
module InventoryRepo {
  import opened Results
  import opened Errors
  import opened Products
  import opened Store

  /** What `reserveStockTx` returns when a database statement throws. */
  const ReserveFailure: Error := Error(InventoryKind, "Error Reserving Stock, try later", 500)

  /** The message of `findProductsById` when some id is not matched. */
  const SomeProductsMissing: string := "Any Products Doesnt exist, Verify each productIds"

  /** Decimal text of an integer, as a template literal prints a number id. */
  function IdText(n: int): string
    decreases if n < 0 then 1 - n else n
  {
    if n < 0 then "-" + IdText(-n)
    else if n < 10 then [(n + '0' as int) as char]
    else IdText(n / 10) + IdText(n % 10)
  }

  function InsufficientStock(id: ProductId): Error {
    ProductsWithoutStockOrNotExistError(Some("Insufficient stock for " + IdText(id)))
  }

  // ---------------------------------------------------------------- reservation

  /** The `WHERE id = ? AND stock >= quantity` condition of one `updateMany`. */
  predicate CanDecrement(t: ProductTable, it: StockRequest) {
    it.id in t && t[it.id].stock >= it.quantity
  }

  /** The `stock: { decrement: quantity }` write of one matching `updateMany`. */
  function Decrement(t: ProductTable, it: StockRequest): (t': ProductTable)
    requires CanDecrement(t, it)
    ensures t'.Keys == t.Keys
    ensures t'[it.id].stock == t[it.id].stock - it.quantity
    ensures forall id :: id in t && id != it.id ==> t'[id] == t[id]
  {
    t[it.id := t[it.id].(stock := t[it.id].stock - it.quantity)]
  }

  /** Where a database fault hits a list of statements, shifted by one statement. */
  function NextFault(fault: Option<nat>): Option<nat> {
    match fault
    case Some(k) => if k == 0 then None else Some(k - 1)
    case None => None
  }

  /** `reserveStockTx`: one conditional decrement per item, in list order. The
      first item whose row is missing or short stops the loop with an error;
      decrements already made are NOT undone here (only the enclosing unit of
      work rolls them back). `fault = Some(k)` makes the k-th statement throw,
      which the catch block turns into `ReserveFailure`. */
  function ReserveStock(t: ProductTable, items: seq<StockRequest>, fault: Option<nat>): (r: (Result<bool, Error>, ProductTable))
    ensures r.0.Ok? ==> r.0.value
    ensures r.1.Keys == t.Keys
    ensures StocksNonNegative(t) ==> StocksNonNegative(r.1)
    ensures forall id :: id in t ==> r.1[id].(stock := 0) == t[id].(stock := 0)
    ensures r.0.Err? ==> r.0.error.kind == InventoryKind
    decreases |items|
  {
    if |items| == 0 then (Ok(true), t)
    else if fault == Some(0) then (Err(ReserveFailure), t)
    else if !CanDecrement(t, items[0]) then (Err(InsufficientStock(items[0].id)), t)
    else ReserveStock(Decrement(t, items[0]), items[1..], NextFault(fault))
  }

  /** Total quantity requested for `id` (repeated ids accumulate). */
  function Demand(items: seq<StockRequest>, id: ProductId): int {
    if |items| == 0 then 0
    else (if items[0].id == id then items[0].quantity else 0) + Demand(items[1..], id)
  }

  ghost predicate NonNegativeQuantities(items: seq<StockRequest>) {
    forall k :: 0 <= k < |items| ==> items[k].quantity >= 0
  }

  /** Every requested product exists and holds its whole demand. */
  ghost predicate Covers(t: ProductTable, items: seq<StockRequest>) {
    forall k :: 0 <= k < |items| ==> items[k].id in t && Demand(items, items[k].id) <= t[items[k].id].stock
  }

  lemma {:induction false} DemandNonNegative(items: seq<StockRequest>, id: ProductId)
    requires NonNegativeQuantities(items)
    ensures Demand(items, id) >= 0
    decreases |items|
  {
    if |items| > 0 {
      DemandNonNegative(items[1..], id);
    }
  }

  /** After a successful first decrement, the rest is covered by the table
      it left exactly when the whole list was covered by the table before. */
  lemma CoversAfterDecrement(t: ProductTable, items: seq<StockRequest>)
    requires |items| > 0 && NonNegativeQuantities(items) && CanDecrement(t, items[0])
    ensures Covers(t, items) <==> Covers(Decrement(t, items[0]), items[1..])
  {
    var it := items[0];
    var rest := items[1..];
    var t' := Decrement(t, it);
    assert forall k :: 1 <= k < |items| ==> items[k] == rest[k - 1];
    assert forall id :: Demand(items, id) == (if it.id == id then it.quantity else 0) + Demand(rest, id);
    if Covers(t', rest) {
      forall k | 0 <= k < |items|
        ensures items[k].id in t && Demand(items, items[k].id) <= t[items[k].id].stock
      {
        if k > 0 {
          assert items[k] == rest[k - 1];
        } else if exists m :: 0 <= m < |rest| && rest[m].id == it.id {
          var m :| 0 <= m < |rest| && rest[m].id == it.id;
          assert rest[m].id in t' && Demand(rest, rest[m].id) <= t'[rest[m].id].stock;
        } else {
          DemandAbsent(rest, it.id);
        }
      }
    } else {
      var k :| 0 <= k < |rest| && !(rest[k].id in t' && Demand(rest, rest[k].id) <= t'[rest[k].id].stock);
      assert items[k + 1] == rest[k];
    }
  }

  /** With non-negative quantities and no fault, reservation succeeds exactly
      when every product exists and holds the total quantity requested for
      it; on success each product's stock drops by that total and nothing
      else changes. */
  lemma {:induction false} ReserveStockSpec(t: ProductTable, items: seq<StockRequest>)
    requires NonNegativeQuantities(items)
    ensures ReserveStock(t, items, None).0.Ok? <==> Covers(t, items)
    ensures ReserveStock(t, items, None).0.Ok? ==>
      forall id :: id in t ==> ReserveStock(t, items, None).1[id].stock == t[id].stock - Demand(items, id)
    decreases |items|
  {
    if |items| > 0 {
      var it := items[0];
      var rest := items[1..];
      assert forall k :: 1 <= k < |items| ==> items[k] == rest[k - 1];
      if CanDecrement(t, it) {
        ReserveStockSpec(Decrement(t, it), rest);
        assert NextFault(None) == None;
        CoversAfterDecrement(t, items);
        assert forall id :: Demand(items, id) == (if it.id == id then it.quantity else 0) + Demand(rest, id);
      } else {
        DemandNonNegative(rest, it.id);
        assert !(items[0].id in t && Demand(items, items[0].id) <= t[items[0].id].stock);
      }
    }
  }

  lemma {:induction false} DemandAbsent(items: seq<StockRequest>, id: ProductId)
    requires forall m :: 0 <= m < |items| ==> items[m].id != id
    ensures Demand(items, id) == 0
    decreases |items|
  {
    if |items| > 0 {
      DemandAbsent(items[1..], id);
    }
  }

  /** The loop in list order: reserving `a + b` is reserving `a` and, only if
      that succeeded, reserving `b` on the table it left. A failure inside
      `a` leaves `b` untouched and keeps the decrements `a` already made. */
  lemma {:induction false} ReserveStockSequential(t: ProductTable, a: seq<StockRequest>, b: seq<StockRequest>)
    ensures var ra := ReserveStock(t, a, None);
      ReserveStock(t, a + b, None) == if ra.0.Ok? then ReserveStock(ra.1, b, None) else ra
    decreases |a|
  {
    if |a| > 0 {
      assert (a + b)[0] == a[0];
      assert (a + b)[1..] == a[1..] + b;
      if CanDecrement(t, a[0]) {
        ReserveStockSequential(Decrement(t, a[0]), a[1..], b);
      }
    } else {
      assert a + b == b;
    }
  }

  /** The first line that cannot be decremented (its product missing or
      short) ends the reservation with 'Insufficient stock for <id>': the
      decrements of the lines before it stay, the lines after it are not
      tried. */
  lemma ReserveStopsAtFirstShortLine(t: ProductTable, a: seq<StockRequest>, it: StockRequest, b: seq<StockRequest>)
    requires ReserveStock(t, a, None).0.Ok?
    requires !CanDecrement(ReserveStock(t, a, None).1, it)
    ensures ReserveStock(t, a + [it] + b, None) == (Err(InsufficientStock(it.id)), ReserveStock(t, a, None).1)
  {
    assert a + [it] + b == a + ([it] + b);
    ReserveStockSequential(t, a, [it] + b);
    assert ([it] + b)[0] == it;
  }

  /** A statement that throws after the lines `a` went through ends the
      reservation with 'Error Reserving Stock, try later' (500), keeping the
      decrements of `a`. */
  lemma {:induction false} ReserveFaultKeepsEarlierDecrements(t: ProductTable, a: seq<StockRequest>, b: seq<StockRequest>)
    requires |b| > 0
    requires ReserveStock(t, a, None).0.Ok?
    ensures ReserveStock(t, a + b, Some(|a|)) == (Err(ReserveFailure), ReserveStock(t, a, None).1)
    decreases |a|
  {
    if |a| == 0 {
      assert a + b == b;
    } else {
      assert (a + b)[0] == a[0];
      assert (a + b)[1..] == a[1..] + b;
      ReserveFaultKeepsEarlierDecrements(Decrement(t, a[0]), a[1..], b);
    }
  }

  // ---------------------------------------------------------------- pre-check

  /** `checkAvailability`: reads each item's product in order; a short one
      gives `ProductsWithoutStockOrNotExistError()`. A missing product makes
      the source dereference `null`, which throws. It never writes. */
  function CheckAvailability(t: ProductTable, items: seq<StockRequest>): (r: Outcome<Result<bool, Error>>)
    ensures r == Returned(Ok(true)) <==>
      forall k :: 0 <= k < |items| ==> items[k].id in t && t[items[k].id].stock >= items[k].quantity
    ensures r.Returned? && r.value.Err? ==> r.value.error == ProductsWithoutStockOrNotExistError(None)
    ensures r.Returned? && r.value.Ok? ==> r.value.value
    ensures (forall k :: 0 <= k < |items| ==> items[k].id in t) ==> r.Returned?
    decreases |items|
  {
    if |items| == 0 then Returned(Ok(true))
    else if items[0].id !in t then Thrown
    else if t[items[0].id].stock < items[0].quantity then Returned(Err(ProductsWithoutStockOrNotExistError(None)))
    else
      var r := CheckAvailability(t, items[1..]);
      assert forall k :: 1 <= k < |items| ==> items[k] == items[1..][k - 1];
      r
  }

  ghost predicate DistinctIds(items: seq<StockRequest>) {
    forall i, j :: 0 <= i < j < |items| ==> items[i].id != items[j].id
  }

  lemma {:induction false} DemandOfDistinct(items: seq<StockRequest>, k: nat)
    requires DistinctIds(items) && k < |items|
    ensures Demand(items, items[k].id) == items[k].quantity
    decreases |items|
  {
    if k == 0 {
      DemandAbsent(items[1..], items[0].id);
    } else {
      DemandOfDistinct(items[1..], k - 1);
    }
  }

  /** The pre-check is item by item, not cumulative: for distinct ids and
      non-negative quantities a passing pre-check guarantees the reservation
      succeeds on the same table. */
  lemma PreCheckSoundForDistinctIds(t: ProductTable, items: seq<StockRequest>)
    requires DistinctIds(items) && NonNegativeQuantities(items)
    requires CheckAvailability(t, items) == Returned(Ok(true))
    ensures ReserveStock(t, items, None).0 == Ok(true)
  {
    forall k | 0 <= k < |items|
      ensures items[k].id in t && Demand(items, items[k].id) <= t[items[k].id].stock
    {
      DemandOfDistinct(items, k);
    }
    ReserveStockSpec(t, items);
  }

  /** With a repeated id the pre-check can pass while the reservation fails:
      two lines of 2 against a stock of 3. */
  lemma PreCheckNotCumulative()
    ensures var t := map[7 := ProductRow("n", "d", "p", 3, 1.0, 1.0)];
      var items := [StockRequest(7, 2), StockRequest(7, 2)];
      CheckAvailability(t, items) == Returned(Ok(true))
      && ReserveStock(t, items, None).0 == Err(InsufficientStock(7))
      && ReserveStock(t, items, None).1[7].stock == 1
  {
    var t := map[7 := ProductRow("n", "d", "p", 3, 1.0, 1.0)];
    var items := [StockRequest(7, 2), StockRequest(7, 2)];
    assert CheckAvailability(t, items[1..][1..]) == Returned(Ok(true));
    var t1 := Decrement(t, items[0]);
    assert t1[7].stock == 1;
    assert ReserveStock(t1, items[1..], None) == (Err(InsufficientStock(7)), t1);
  }

  // ---------------------------------------------------------------- lookups

  ghost predicate Distinct(ids: seq<ProductId>) {
    forall i, j :: 0 <= i < j < |ids| ==> ids[i] != ids[j]
  }

  /** The ids the `findMany ... where id in ids` query matches (once each). */
  function FoundIds(t: ProductTable, ids: seq<ProductId>): set<ProductId> {
    set id | id in ids && id in t
  }

  lemma {:induction false} SeqSetCardinality(ids: seq<ProductId>)
    ensures |set id | id in ids| <= |ids|
    ensures |set id | id in ids| == |ids| <==> Distinct(ids)
    decreases |ids|
  {
    if |ids| > 0 {
      var rest := ids[1..];
      SeqSetCardinality(rest);
      assert forall i :: 1 <= i < |ids| ==> ids[i] == rest[i - 1];
      var s := set id | id in ids;
      var s' := set id | id in rest;
      assert s == s' + {ids[0]};
      if ids[0] in rest {
        assert s == s';
        var m :| 0 <= m < |rest| && rest[m] == ids[0];
        assert ids[0] == ids[m + 1];
      } else {
        assert |s| == |s'| + 1;
        if Distinct(rest) {
          forall i, j | 0 <= i < j < |ids| ensures ids[i] != ids[j] {
            if i > 0 {
              assert ids[i] == rest[i - 1] && ids[j] == rest[j - 1];
            } else {
              assert ids[j] == rest[j - 1];
            }
          }
        } else {
          var i, j :| 0 <= i < j < |rest| && rest[i] == rest[j];
          assert ids[i + 1] == ids[j + 1];
        }
      }
    }
  }

  lemma SubsetCardinality(a: set<ProductId>, b: set<ProductId>)
    requires a <= b
    ensures |a| <= |b|
    ensures a != b ==> |a| < |b|
  {
    assert b == a + (b - a);
    assert |b| == |a| + |b - a|;
  }

  /** The length comparison of `findProductsById` succeeds exactly when the
      ids are distinct and all stored. */
  lemma FoundAllIff(t: ProductTable, ids: seq<ProductId>)
    ensures |ids| == |FoundIds(t, ids)| <==> Distinct(ids) && forall i :: 0 <= i < |ids| ==> ids[i] in t
  {
    var all := set id | id in ids;
    var found := FoundIds(t, ids);
    SeqSetCardinality(ids);
    assert found <= all;
    SubsetCardinality(found, all);
    if |ids| == |found| {
      assert found == all;
      forall i | 0 <= i < |ids| ensures ids[i] in t {
        assert ids[i] in all;
      }
    }
    if Distinct(ids) && forall i :: 0 <= i < |ids| ==> ids[i] in t {
      forall x | x in all ensures x in found {
        var i :| 0 <= i < |ids| && ids[i] == x;
      }
      assert all == found;
    }
  }

  /** `findProductsById`: an error whenever the number of products found
      differs from the number of ids asked for, otherwise every product. The
      query returns rows in database order; the model lists them in request
      order. */
  function FindProductsById(t: ProductTable, ids: seq<ProductId>): (r: Result<seq<Product>, Error>)
    ensures r.Ok? <==> Distinct(ids) && forall i :: 0 <= i < |ids| ==> ids[i] in t
    ensures r.Err? ==> r.error == ProductNotFoundError(Some(SomeProductsMissing))
    ensures r.Ok? ==> |r.value| == |ids|
    ensures r.Ok? ==> forall i :: 0 <= i < |ids| ==> ids[i] in t && r.value[i] == ToProduct(ids[i], t[ids[i]])
  {
    FoundAllIff(t, ids);
    if |ids| != |FoundIds(t, ids)| then Err(ProductNotFoundError(Some(SomeProductsMissing)))
    else Ok(seq(|ids|, i requires 0 <= i < |ids| && ids[i] in t => ToProduct(ids[i], t[ids[i]])))
  }

  /** `findProductById` */
  function FindProductById(t: ProductTable, id: ProductId): (r: Result<Product, Error>)
    ensures r.Ok? <==> id in t
    ensures r.Ok? ==> r.value == ToProduct(id, t[id])
    ensures r.Err? ==> r.error == ProductNotFoundError(Some("Product with id " + IdText(id) + " doesnt exist"))
  {
    if id in t then Ok(ToProduct(id, t[id]))
    else Err(ProductNotFoundError(Some("Product with id " + IdText(id) + " doesnt exist")))
  }

  /** The single and the batch lookup agree on one id. */
  lemma SingleAndBatchLookupAgree(t: ProductTable, id: ProductId)
    ensures FindProductById(t, id).Ok? <==> FindProductsById(t, [id]).Ok?
    ensures FindProductById(t, id).Ok? ==> FindProductsById(t, [id]).value == [FindProductById(t, id).value]
  {
  }
}

=== FILE: order.dfy ===
/** Orders: status, the primitive record, the `Order` entity and its two JSON
    projections. */
module Orders {
  import opened Results
  import opened OrderItems

  /** An instant as the text it was parsed from (dates are not interpreted). */
  type Instant = string

  datatype OrderStatus = Pending | Paid | Cancelled | Delivered

  datatype PrimitiveOrder = PrimitiveOrder(
    id: Option<string>,
    paidAt: Option<Instant>,
    customerId: string,
    status: OrderStatus,
    baseFee: real,
    taxFee: real,
    totalAmount: real,
    orderItem: seq<PrimitiveOrderItem>,
    createdAt: Option<Instant>,
    updatedAt: Option<Instant>)

  /** `toApiJSON()` */
  datatype OrderApiJson = OrderApiJson(
    id: Option<string>,
    totalAmount: real,
    status: OrderStatus,
    paidAt: Option<Instant>,
    orderItem: seq<OrderItem>)

  /** `toJSON()` */
  datatype OrderJson = OrderJson(
    id: Option<string>,
    totalAmount: real,
    status: OrderStatus,
    paidAt: Option<Instant>,
    orderItem: seq<OrderItem>,
    createdAt: Option<Instant>,
    updatedAt: Option<Instant>)

  /** The entity has no `customerId`. */
  datatype Order = Order(
    id: Option<string>,
    totalAmount: real,
    status: OrderStatus,
    baseFee: real,
    taxFee: real,
    paidAt: Option<Instant>,
    orderItem: seq<OrderItem>,
    createdAt: Option<Instant>,
    updatedAt: Option<Instant>)
  {
    /** `new Order(p)` */
    static function FromPrimitive(p: PrimitiveOrder): (o: Order)
      ensures o.id == p.id && o.totalAmount == p.totalAmount && o.status == p.status
      ensures o.paidAt == p.paidAt && o.baseFee == p.baseFee && o.taxFee == p.taxFee
      ensures o.createdAt == p.createdAt && o.updatedAt == p.updatedAt
      ensures |o.orderItem| == |p.orderItem|
      ensures forall i :: 0 <= i < |p.orderItem| ==> o.orderItem[i].ToApiJson() == p.orderItem[i]
    {
      Order(p.id, p.totalAmount, p.status, p.baseFee, p.taxFee, p.paidAt,
            ConvertArray(p.orderItem), p.createdAt, p.updatedAt)
    }

    /** `toApiJSON()`: the public fields; the record has no fee and no
        timestamp field. */
    function ToApiJson(): (r: OrderApiJson)
      ensures r.id == id && r.totalAmount == totalAmount && r.status == status
      ensures r.paidAt == paidAt && r.orderItem == orderItem
    {
      OrderApiJson(id, totalAmount, status, paidAt, orderItem)
    }

    /** `toJSON()`: the public fields of `toApiJSON()` and the two timestamps. */
    function ToJson(): (r: OrderJson)
      ensures var a := ToApiJson();
        r.id == a.id && r.totalAmount == a.totalAmount && r.status == a.status
        && r.paidAt == a.paidAt && r.orderItem == a.orderItem
      ensures r.createdAt == createdAt && r.updatedAt == updatedAt
    {
      OrderJson(id, totalAmount, status, paidAt, orderItem, createdAt, updatedAt)
    }
  }

  /** `customerId` is dropped: primitives that differ only in it build the
      same entity. */
  lemma CustomerIdNotKept(p: PrimitiveOrder, c: string)
    ensures Order.FromPrimitive(p.(customerId := c)) == Order.FromPrimitive(p)
  {
  }

  /** `toJSON` is `toApiJSON` plus the two timestamps, and neither projection
      shows the fees: orders that differ only in `baseFee`/`taxFee` project
      identically. */
  lemma ProjectionsAgreeAndHideFees(o: Order, base: real, tax: real)
    ensures var (a, j) := (o.ToApiJson(), o.ToJson());
      a.id == j.id && a.totalAmount == j.totalAmount && a.status == j.status
      && a.paidAt == j.paidAt && a.orderItem == j.orderItem
    ensures o.ToJson().createdAt == o.createdAt && o.ToJson().updatedAt == o.updatedAt
    ensures o.(baseFee := base, taxFee := tax).ToApiJson() == o.ToApiJson()
    ensures o.(baseFee := base, taxFee := tax).ToJson() == o.ToJson()
  {
  }
}

=== FILE: order_item.dfy ===
/** Order lines: the primitive record and the `OrderItem` entity. */
module OrderItems {
  import opened Results
  import opened Products

  datatype PrimitiveOrderItem = PrimitiveOrderItem(
    id: Option<string>,
    productId: ProductId,
    quantity: real,
    unitPrice: real,
    lineTotal: real)

  datatype OrderItem = OrderItem(
    id: Option<string>,
    productId: ProductId,
    quantity: real,
    unitPrice: real,
    lineTotal: real)
  {
    /** `new OrderItem(p)`: copies the five fields; `lineTotal` is kept as given. */
    static function FromPrimitive(p: PrimitiveOrderItem): (r: OrderItem)
      ensures r.ToApiJson() == p
    {
      OrderItem(p.id, p.productId, p.quantity, p.unitPrice, p.lineTotal)
    }

    /** `toApiJson()`: the five fields, from which the item can be rebuilt. */
    function ToApiJson(): (r: PrimitiveOrderItem)
      ensures OrderItem(r.id, r.productId, r.quantity, r.unitPrice, r.lineTotal) == this
    {
      PrimitiveOrderItem(id, productId, quantity, unitPrice, lineTotal)
    }
  }

  /** `convertArrayPrimitiveToArrayInstances`: one entity per primitive, in order. */
  function ConvertArray(items: seq<PrimitiveOrderItem>): (r: seq<OrderItem>)
    ensures |r| == |items|
    ensures forall i :: 0 <= i < |items| ==> r[i].ToApiJson() == items[i]
  {
    seq(|items|, i requires 0 <= i < |items| => OrderItem.FromPrimitive(items[i]))
  }

  /** Round trip on all five fields; in particular a `lineTotal` that is not
      `unitPrice * quantity` survives unchanged. */
  lemma ApiJsonRoundTrip(p: PrimitiveOrderItem, q: OrderItem)
    ensures OrderItem.FromPrimitive(p).ToApiJson() == p
    ensures OrderItem.FromPrimitive(q.ToApiJson()) == q
  {
  }

  /** Converting the concatenation of two lists is converting each. */
  lemma ConvertArrayAppend(a: seq<PrimitiveOrderItem>, b: seq<PrimitiveOrderItem>)
    ensures ConvertArray(a + b) == ConvertArray(a) + ConvertArray(b)
  {
  }
}

=== FILE: order_repo.dfy ===
/** The order repository over the order table: the "already processed"
    lookup, order creation, the cancel stub, and the database transaction
    that wraps a unit of work. */
module OrderRepo {
  import opened Results
  import opened Errors
  import opened Orders
  import opened Transactions
  import opened Store

  /** What `createOrder` returns when the insert throws. */
  const CreateFailure: Error := Error(OrderKind, "Error in create the Order", 500)

  /** `{ id, transactionId }` as answered by `findByIdIfIsProccesed`. */
  datatype ProcessedOrder = ProcessedOrder(id: string, transactionId: Option<string>)

  /** No row before index `i` belongs to the order. */
  predicate NoRowBefore(txs: TransactionTable, i: int, orderId: string) {
    forall j :: 0 <= j < i && j < |txs| ==> txs[j].orderId != orderId
  }

  /** `order.transaction?.[0]?.id ?? null`: the id of the first transaction
      row of the order, or none when it has no transaction (or that row has
      no id). */
  function FirstTransactionId(txs: TransactionTable, orderId: string): (r: Option<string>)
    ensures r.Some? ==> exists i :: 0 <= i < |txs| && txs[i].orderId == orderId && txs[i].id == r
    ensures (forall i :: 0 <= i < |txs| ==> txs[i].orderId != orderId) ==> r.None?
    ensures forall i :: 0 <= i < |txs| && txs[i].orderId == orderId && NoRowBefore(txs, i, orderId) ==> r == txs[i].id
    decreases |txs|
  {
    if |txs| == 0 then None
    else if txs[0].orderId == orderId then txs[0].id
    else
      var r := FirstTransactionId(txs[1..], orderId);
      assert forall i :: 1 <= i < |txs| ==> txs[i] == txs[1..][i - 1];
      r
  }

  /** `findByIdIfIsProccesed(id)`: `ok(null)` for an unknown id; for a stored
      order, whatever its status, its id and first transaction id. */
  function FindByIdIfProcessed(s: Store, id: string): (r: Result<Option<ProcessedOrder>, Error>)
    ensures r.Ok?
    ensures r.value.Some? <==> id in s.orders
    ensures r.value.Some? ==> r.value.value.id == id
    ensures r.value.Some? ==> r.value.value.transactionId == FirstTransactionId(s.transactions, id)
  {
    if id !in s.orders then Ok(None)
    else Ok(Some(ProcessedOrder(id, FirstTransactionId(s.transactions, id))))
  }

  /** "Processed" means "exists": the answer does not depend on the order's
      status, nor on anything else stored in its row. */
  lemma ProcessedMeansExists(s: Store, id: string, row: OrderRow)
    ensures var s' := s.(orders := s.orders[id := row]);
      FindByIdIfProcessed(s', id).value.Some?
    ensures id in s.orders ==>
      FindByIdIfProcessed(s.(orders := s.orders[id := row]), id) == FindByIdIfProcessed(s, id)
  {
  }

  /** The row `createOrder` writes for a payload. */
  function StoredRow(payload: PrimitiveOrder): (row: OrderRow)
    ensures row.totalAmount == payload.totalAmount && row.customerId == payload.customerId
    ensures row.status == payload.status && row.items == payload.orderItem && row.paidAt.None?
  {
    OrderRow(payload.totalAmount, payload.customerId, payload.status, payload.orderItem, None)
  }

  /** `createOrder(payload)`: inserts the order under `payload.id` (or under
      `freshId`, the database default, when the payload has none) with its
      total, customer, status and items; `baseFee` and `taxFee` are not
      written. The insert throws, giving `CreateFailure` and writing
      nothing, on `fault` or when the key is already taken. */
  function CreateOrder(orders: OrderTable, payload: PrimitiveOrder, freshId: string, fault: bool): (r: (Result<string, Error>, OrderTable))
    ensures r.0.Err? <==> fault || payload.id.GetOr(freshId) in orders
    ensures r.0.Err? ==> r.0.error == CreateFailure && r.1 == orders
    ensures r.0.Ok? ==> r.0.value == payload.id.GetOr(freshId)
    ensures r.0.Ok? ==> r.1 == orders[r.0.value := StoredRow(payload)]
  {
    var key := payload.id.GetOr(freshId);
    if fault || key in orders then (Err(CreateFailure), orders)
    else (Ok(key), orders[key := StoredRow(payload)])
  }

  /** The fees of the payload never reach the table. */
  lemma CreateOrderIgnoresFees(orders: OrderTable, payload: PrimitiveOrder, base: real, tax: real, freshId: string, fault: bool)
    ensures CreateOrder(orders, payload.(baseFee := base, taxFee := tax), freshId, fault)
         == CreateOrder(orders, payload, freshId, fault)
  {
  }

  /** An order just created is found by the lookup under the returned id,
      which is the id the payload asked for; creating it again fails. */
  lemma CreateThenFind(s: Store, payload: PrimitiveOrder, freshId: string)
    requires CreateOrder(s.orders, payload, freshId, false).0.Ok?
    ensures var (r, orders') := CreateOrder(s.orders, payload, freshId, false);
      payload.id.Some? ==> r.value == payload.id.value
    ensures var (r, orders') := CreateOrder(s.orders, payload, freshId, false);
      FindByIdIfProcessed(s.(orders := orders'), r.value).value.Some?
    ensures var (r, orders') := CreateOrder(s.orders, payload, freshId, false);
      CreateOrder(orders', payload, freshId, false).0 == Err(CreateFailure)
  {
  }

  /** `markCancelled(orderId)`: answers `ok(null)` and writes nothing. */
  function MarkCancelled(orders: OrderTable, orderId: string): (r: (Result<Option<bool>, Error>, OrderTable))
    ensures r.0 == Ok(None) && r.1 == orders
  {
    (Ok(None), orders)
  }

  /** Despite its name, `markCancelled` leaves a pending order pending. */
  lemma MarkCancelledKeepsStatus(orders: OrderTable, orderId: string)
    requires orderId in orders
    ensures var orders' := MarkCancelled(orders, orderId).1;
      orderId in orders' && orders'[orderId].status == orders[orderId].status
  {
  }

  /** `runInTransaction(fn)`: runs the unit on the current state; when it
      returns, its state is committed and its value returned; when it
      throws, the state before the unit is kept and the exception goes on
      to the caller. */
  function RunInTransaction<S, T, C>(s: S, body: S -> Attempt<T, S, C>): (r: Attempt<T, S, C>)
    ensures r.outcome == body(s).outcome && r.calls == body(s).calls
    ensures r.outcome.Returned? ==> r.state == body(s).state
    ensures r.outcome.Thrown? ==> r.state == s
  {
    Commit(s, body(s))
  }

  /** The end of a database transaction whose unit ran from `before` and
      gave `a`: a unit that returned is committed, one that threw is rolled
      back to `before`; its reply and its calls stand either way. */
  function Commit<S, T, C>(before: S, a: Attempt<T, S, C>): (r: Attempt<T, S, C>)
    ensures r.outcome == a.outcome && r.calls == a.calls
    ensures r.state == (if a.outcome.Returned? then a.state else before)
  {
    if a.outcome.Returned? then a else a.(state := before)
  }

  /** A unit run inside another unit on the same state behaves as the inner
      unit alone: the wrapper adds no effect of its own. */
  lemma RunInTransactionNests<S, T, C>(s: S, body: S -> Attempt<T, S, C>)
    ensures RunInTransaction(s, t => RunInTransaction(t, body)) == RunInTransaction(s, body)
  {
  }

  /** All or nothing: the state after a unit is either the state the unit
      reached, when it returned, or the state before it. */
  lemma RunInTransactionAllOrNothing<S, T, C>(s: S, body: S -> Attempt<T, S, C>)
    ensures var r := RunInTransaction(s, body);
      r.state == s || (r.outcome.Returned? && r.state == body(s).state)
    ensures body(s).outcome.Thrown? ==> RunInTransaction(s, body).state == s
  {
  }
}

=== FILE: pricing.dfy ===
/** Order pricing: each line at its product's price, the base fee as the sum
    of the lines, 19 % IVA rounded to a whole amount, and the total rounded
    to cents. Money is exact (real); JavaScript's `Math.round` is written out. */
module Pricing {
  import opened Results
  import opened Products
  import opened OrderItems

  /** The IVA rate in percent. */
  const Iva: int := 19

  /** `Math.round(x)`: the nearest integer, halves rounding up (towards
      +infinity, also for negative x). */
  function JsRound(x: real): (n: int)
    ensures x - 0.5 < n as real <= x + 0.5
  {
    (x + 0.5).Floor
  }

  /** The integer `Math.round` picks is the only one within half a unit,
      counting the upper end and not the lower one. */
  lemma JsRoundIsNearest(x: real, n: int)
    ensures n == JsRound(x) <==> x - 0.5 < n as real <= x + 0.5
  {
  }

  /** A whole number rounds to itself. */
  lemma JsRoundOfWhole(n: int)
    ensures JsRound(n as real) == n
  {
  }

  /** `Math.round(baseFee * (IVA / 100))`. */
  function TaxFee(base: real): (tax: int)
    ensures base * Iva as real / 100.0 - 0.5 < tax as real <= base * Iva as real / 100.0 + 0.5
  {
    JsRound(base * (Iva as real / 100.0))
  }

  /** `Math.round((baseFee + taxFee) * 100) / 100`: the taxed amount rounded
      to a whole number of cents. */
  function TotalAmount(base: real): (total: real)
    ensures base + TaxFee(base) as real - 0.005 < total <= base + TaxFee(base) as real + 0.005
    ensures (total * 100.0).Floor as real == total * 100.0
  {
    JsRound((base + TaxFee(base) as real) * 100.0) as real / 100.0
  }

  /** When the base fee is a whole number of cents, the total rounding
      changes nothing: the total is exactly base fee plus tax. */
  lemma TotalExactOnWholeCents(cents: int)
    ensures TotalAmount(cents as real / 100.0) == cents as real / 100.0 + TaxFee(cents as real / 100.0) as real
  {
    var base := cents as real / 100.0;
    var tax := TaxFee(base);
    assert (base + tax as real) * 100.0 == (cents + 100 * tax) as real;
    JsRoundOfWhole(cents + 100 * tax);
  }

  /** The worked figure: a base of 40.5 is taxed 8 (7.695 rounded) and totals
      48.5. */
  lemma FortyAndAHalf()
    ensures TaxFee(40.5) == 8
    ensures TotalAmount(40.5) == 48.5
  {
    var tax := TaxFee(40.5);
    assert 7.195 < tax as real <= 8.195;
    assert tax == 8;
    assert JsRound(4850.0) == 4850 by { JsRoundOfWhole(4850); }
  }

  /** A line of the order request: the product and how many of it. */
  datatype RequestItem = RequestItem(productId: ProductId, quantity: real)

  /** No product before index `k` has the id. */
  predicate NoneBefore(products: seq<Product>, k: int, id: ProductId) {
    forall j :: 0 <= j < k && j < |products| ==> products[j].id != Some(id)
  }

  /** `products.find(x => x.id === productId)`: the first product with that id. */
  function FindProduct(products: seq<Product>, id: ProductId): (r: Option<Product>)
    ensures r.Some? ==> r.value in products && r.value.id == Some(id)
    ensures r.None? <==> forall k :: 0 <= k < |products| ==> products[k].id != Some(id)
    ensures forall k :: 0 <= k < |products| && products[k].id == Some(id) && NoneBefore(products, k, id) ==> r == Some(products[k])
    decreases |products|
  {
    if |products| == 0 then None
    else if products[0].id == Some(id) then Some(products[0])
    else
      var r := FindProduct(products[1..], id);
      assert forall k :: 1 <= k < |products| ==> products[k] == products[1..][k - 1];
      r
  }

  /** The persisted line: the request's product and quantity at the
      product's price, with `lineTotal = unitPrice * quantity`. */
  function PriceLine(it: RequestItem, p: Product): (line: PrimitiveOrderItem)
    ensures line.productId == it.productId && line.quantity == it.quantity
    ensures line.unitPrice == p.price && line.lineTotal == line.unitPrice * line.quantity
    ensures line.id.None?
  {
    PrimitiveOrderItem(None, it.productId, it.quantity, p.price, p.price * it.quantity)
  }

  /** Every requested product is among the products read. */
  predicate AllPriced(items: seq<RequestItem>, products: seq<Product>) {
    forall i :: 0 <= i < |items| ==> FindProduct(products, items[i].productId).Some?
  }

  /** The `orderItems.map(...)` that prices the order, in request order.
      A product that is not among those read makes the source read `price`
      of `undefined`, which throws: that is the None here. */
  function PriceItems(items: seq<RequestItem>, products: seq<Product>): (r: Option<seq<PrimitiveOrderItem>>)
    ensures r.Some? <==> AllPriced(items, products)
    ensures r.Some? ==> |r.value| == |items|
    ensures r.Some? ==> forall i :: 0 <= i < |items| ==>
      r.value[i] == PriceLine(items[i], FindProduct(products, items[i].productId).value)
    decreases |items|
  {
    if |items| == 0 then Some([])
    else match FindProduct(products, items[0].productId)
      case None => None
      case Some(p) =>
        match PriceItems(items[1..], products)
        case None =>
          assert !AllPriced(items[1..], products);
          None
        case Some(rest) =>
          assert forall i :: 1 <= i < |items| ==> items[i] == items[1..][i - 1];
          Some([PriceLine(items[0], p)] + rest)
  }

  /** No two products share an id. */
  predicate DistinctProductIds(products: seq<Product>) {
    forall i, j :: 0 <= i < j < |products| ==> products[i].id != products[j].id
  }

  /** With distinct ids, `find` answers the same whatever order the same
      products come in. */
  lemma FindProductIgnoresOrder(ps: seq<Product>, qs: seq<Product>, id: ProductId)
    requires DistinctProductIds(ps) && DistinctProductIds(qs)
    requires forall p :: p in ps <==> p in qs
    ensures FindProduct(ps, id) == FindProduct(qs, id)
  {
    var r1, r2 := FindProduct(ps, id), FindProduct(qs, id);
    if r1.Some? {
      var k :| 0 <= k < |qs| && qs[k] == r1.value;
      assert r2.Some?;
      var a :| 0 <= a < |ps| && ps[a] == r1.value;
      var b :| 0 <= b < |ps| && ps[b] == r2.value;
      assert a == b;
    } else if r2.Some? {
      assert false;
    }
  }

  /** With distinct ids, the priced lines do not depend on the order the
      products were read in. */
  lemma {:induction false} PriceItemsIgnoresOrder(items: seq<RequestItem>, ps: seq<Product>, qs: seq<Product>)
    requires DistinctProductIds(ps) && DistinctProductIds(qs)
    requires forall p :: p in ps <==> p in qs
    ensures PriceItems(items, ps) == PriceItems(items, qs)
    decreases |items|
  {
    if |items| > 0 {
      FindProductIgnoresOrder(ps, qs, items[0].productId);
      PriceItemsIgnoresOrder(items[1..], ps, qs);
    }
  }

  /** The sum of the line totals, first line first. */
  function LineTotalSum(lines: seq<PrimitiveOrderItem>): real
    decreases |lines|
  {
    if |lines| == 0 then 0.0 else lines[0].lineTotal + LineTotalSum(lines[1..])
  }

  /** Adding one more line adds its total to the sum. */
  lemma {:induction false} LineTotalSumSnoc(lines: seq<PrimitiveOrderItem>, l: PrimitiveOrderItem)
    ensures LineTotalSum(lines + [l]) == LineTotalSum(lines) + l.lineTotal
    decreases |lines|
  {
    if |lines| > 0 {
      assert (lines + [l])[1..] == lines[1..] + [l];
      LineTotalSumSnoc(lines[1..], l);
    }
  }

  /** Lines whose totals are not negative. */
  predicate NonNegativeLines(lines: seq<PrimitiveOrderItem>) {
    forall i :: 0 <= i < |lines| ==> lines[i].lineTotal >= 0.0
  }

  /** `baseFee`: the running total of `baseFee += lineTotal` over the lines
      in order, starting from 0. It is the sum of the line totals, and with
      no negative line it is at least every line's total. */
  function BaseFee(lines: seq<PrimitiveOrderItem>): (r: real)
    ensures r == LineTotalSum(lines)
    ensures NonNegativeLines(lines) ==> forall i :: 0 <= i < |lines| ==> 0.0 <= lines[i].lineTotal <= r
    decreases |lines|
  {
    if |lines| == 0 then 0.0
    else
      LineTotalSumSnoc(lines[..|lines| - 1], lines[|lines| - 1]);
      assert lines[..|lines| - 1] + [lines[|lines| - 1]] == lines;
      BaseFee(lines[..|lines| - 1]) + lines[|lines| - 1].lineTotal
  }

  /** The base fee of two lists of lines is the sum of their base fees. */
  lemma {:induction false} BaseFeeAppend(a: seq<PrimitiveOrderItem>, b: seq<PrimitiveOrderItem>)
    ensures BaseFee(a + b) == BaseFee(a) + BaseFee(b)
    decreases |b|
  {
    if |b| == 0 {
      assert a + b == a;
    } else {
      assert (a + b)[..|a + b| - 1] == a + b[..|b| - 1];
      BaseFeeAppend(a, b[..|b| - 1]);
    }
  }

  /** The base fee of one line is its line total, and lines priced at
      non-negative prices and quantities add up to a non-negative fee. */
  lemma {:induction false} BaseFeeNonNegative(lines: seq<PrimitiveOrderItem>)
    requires forall i :: 0 <= i < |lines| ==> lines[i].lineTotal >= 0.0
    ensures BaseFee(lines) >= 0.0
    ensures |lines| == 1 ==> BaseFee(lines) == lines[0].lineTotal
    decreases |lines|
  {
    if |lines| > 0 {
      BaseFeeNonNegative(lines[..|lines| - 1]);
    }
  }
}

=== FILE: product.dfy ===
/** Products of the inventory context: the primitive record read from the
    database, the `Product` entity built from it, and the `{id, quantity}`
    pair used to check and reserve stock. */
module Products {
  import opened Results

  type ProductId = int

  /** `PrimitiveProduct`: `id` is optional, every other field is required. */
  datatype PrimitiveProduct = PrimitiveProduct(
    id: Option<ProductId>,
    name: string,
    description: string,
    picture: string,
    stock: int,
    price: real,
    weightInGrams: real)

  /** `ICheckProductStock`: nothing but a product id and a quantity. */
  datatype StockRequest = StockRequest(id: ProductId, quantity: int)

  datatype Product = Product(
    id: Option<ProductId>,
    name: string,
    description: string,
    picture: string,
    stock: int,
    price: real,
    weightInGrams: real)
  {
    /** `new Product(p)`: copies the seven fields, checks nothing. */
    static function FromPrimitive(p: PrimitiveProduct): (r: Product)
      ensures r.ToApiJson() == p
    {
      Product(p.id, p.name, p.description, p.picture, p.stock, p.price, p.weightInGrams)
    }

    /** `toApiJson()`: the seven fields as a plain record, from which the
        product can be rebuilt. */
    function ToApiJson(): (r: PrimitiveProduct)
      ensures Product(r.id, r.name, r.description, r.picture, r.stock, r.price, r.weightInGrams) == this
    {
      PrimitiveProduct(id, name, description, picture, stock, price, weightInGrams)
    }
  }

  /** `new Product(p).toApiJson()` gives back `p` on all seven fields, whatever
      their values (no validation of stock or price), and every product is the
      entity of its own projection. */
  lemma ApiJsonRoundTrip(p: PrimitiveProduct, q: Product)
    ensures Product.FromPrimitive(p).ToApiJson() == p
    ensures Product.FromPrimitive(q.ToApiJson()) == q
    ensures Product.FromPrimitive(p).stock == p.stock && Product.FromPrimitive(p).price == p.price
  {
  }
}

=== FILE: results.dfy ===
/** The shared result type of the order service (`Ok`/`Err` with `bind`), an
    optional value standing for the source's `undefined`/`null`, and an outcome
    type that records whether a call returned or threw. */
module Results {

  /** `undefined` or `null` (None) versus a present value (Some). */
  datatype Option<+T> = None | Some(value: T) {
    function GetOr(default: T): (r: T)
      ensures Some? ==> r == value
      ensures None? ==> r == default
    {
      match this
      case Some(v) => v
      case None => default
    }
  }

  /** `Result<T, E> = Ok<T> | Err<E>`; `IsOk` is the source's `isOk` flag. */
  datatype Result<+T, +E> = Ok(value: T) | Err(error: E) {

    predicate IsOk() {
      Ok?
    }

    /** `bind(r, f)`: apply `f` to the value of an `Ok`, pass an `Err` through. */
    function Bind<U>(f: T -> Result<U, E>): (r: Result<U, E>)
      ensures Ok? ==> r == f(value)
      ensures Err? ==> r == Err(error)
    {
      match this
      case Ok(v) => f(v)
      case Err(e) => Err(e)
    }
  }

  /** Whether a call into a collaborator returned a value or threw. Thrown
      values are not modelled: every catch block of the core ignores them. */
  datatype Outcome<+T> = Returned(value: T) | Thrown

  /** A collaborator call that returned an `Ok` result. */
  predicate Succeeded<T, E>(o: Outcome<Result<T, E>>) {
    o.Returned? && o.value.Ok?
  }

  /** `ok(v)` builds a successful result holding `v`. */
  function MakeOk<T, E>(v: T): (r: Result<T, E>)
    ensures r.IsOk() && r.value == v
  {
    Ok(v)
  }

  /** `err(e)` builds a failed result holding `e`. */
  function MakeErr<T, E>(e: E): (r: Result<T, E>)
    ensures !r.IsOk() && r.error == e
  {
    Err(e)
  }

  /** Left identity: `bind(ok(v), f)` is `f(v)`. */
  lemma BindLeftIdentity<T, U, E>(v: T, f: T -> Result<U, E>)
    ensures MakeOk<T, E>(v).Bind(f) == f(v)
  {
  }

  /** An error short-circuits: `bind(err(e), f)` is `err(e)` whatever `f` is. */
  lemma BindShortCircuits<T, U, E>(e: E, f: T -> Result<U, E>, g: T -> Result<U, E>)
    ensures MakeErr<T, E>(e).Bind(f) == MakeErr<U, E>(e)
    ensures MakeErr<T, E>(e).Bind(f) == MakeErr<T, E>(e).Bind(g)
  {
  }

  /** Right identity: binding with `ok` gives back the same result. */
  lemma BindRightIdentity<T, E>(r: Result<T, E>)
    ensures r.Bind(v => MakeOk<T, E>(v)) == r
  {
  }
}

=== FILE: store.dfy ===
/** The database as a record of tables. Products and orders are keyed by
    their primary key; customers and transactions are kept in row order,
    because lookups on them return the first matching row. */
module Store {
  import opened Results
  import opened Errors
  import opened Products
  import opened OrderItems
  import opened Orders
  import opened Transactions
  import opened Customers

  /** A product row without its key. */
  datatype ProductRow = ProductRow(
    name: string,
    description: string,
    picture: string,
    stock: int,
    price: real,
    weightInGrams: real)

  type ProductTable = map<ProductId, ProductRow>

  type CustomerTable = seq<PrimitiveCustomer>

  /** An order row without its key: the columns `createOrder` writes, and the
      payment instant written at checkout. */
  datatype OrderRow = OrderRow(
    totalAmount: real,
    customerId: string,
    status: OrderStatus,
    items: seq<PrimitiveOrderItem>,
    paidAt: Option<Instant>)

  type OrderTable = map<string, OrderRow>

  type TransactionTable = seq<Transaction>

  datatype Store = Store(
    products: ProductTable,
    customers: CustomerTable,
    orders: OrderTable,
    transactions: TransactionTable)

  /** What a writing repository call produced: whether it returned (and what)
      or threw, and its table afterwards. */
  datatype Step<T, S> = Step(outcome: Outcome<Result<T, Error>>, table: S)

  /** What a unit of work produced: its outcome, the state it reached, and the
      collaborator calls it made, in order. */
  datatype Attempt<T, S, C> = Attempt(outcome: Outcome<T>, state: S, calls: seq<C>)

  /** The `Product` entity of a stored row (the row's Decimal price already
      read as a number). */
  function ToProduct(id: ProductId, row: ProductRow): (p: Product)
    ensures p.id == Some(id) && p.stock == row.stock && p.price == row.price
  {
    Product.FromPrimitive(PrimitiveProduct(Some(id), row.name, row.description, row.picture,
                                           row.stock, row.price, row.weightInGrams))
  }

  ghost predicate StocksNonNegative(t: ProductTable) {
    forall id :: id in t ==> t[id].stock >= 0
  }
}

=== FILE: transaction.dfy ===
/** Payment transactions: status and the record/entity pair. */
module Transactions {
  import opened Results

  /** `TransactionStatus`: exactly these five values. */
  datatype TransactionStatus = Pending | Processing | Success | Failed | Cancelled

  /** `PrimitiveTransaction`: `id`, `payerTransactionId` and `description` are
      optional, the rest required. */
  datatype PrimitiveTransaction = PrimitiveTransaction(
    id: Option<string>,
    orderId: string,
    payerTransactionId: Option<string>,
    payerName: string,
    totalAmount: real,
    baseFee: real,
    taxFee: real,
    description: Option<string>,
    paymentStatus: TransactionStatus)

  datatype Transaction = Transaction(
    id: Option<string>,
    orderId: string,
    payerName: string,
    payerTransactionId: Option<string>,
    baseFee: real,
    taxFee: real,
    totalAmount: real,
    description: Option<string>,
    paymentStatus: TransactionStatus)
  {
    /** `new Transaction(p)`: every field copied, absent optionals stay absent. */
    static function FromPrimitive(p: PrimitiveTransaction): (r: Transaction)
      ensures r.ToPrimitive() == p
    {
      Transaction(p.id, p.orderId, p.payerName, p.payerTransactionId, p.baseFee,
                  p.taxFee, p.totalAmount, p.description, p.paymentStatus)
    }

    /** The entity seen as the primitive record (its declared JSON shape). */
    function ToPrimitive(): (r: PrimitiveTransaction)
      ensures Transaction(r.id, r.orderId, r.payerName, r.payerTransactionId, r.baseFee,
                          r.taxFee, r.totalAmount, r.description, r.paymentStatus) == this
    {
      PrimitiveTransaction(id, orderId, payerTransactionId, payerName, totalAmount,
                           baseFee, taxFee, description, paymentStatus)
    }
  }

  /** The constructor loses nothing and adds nothing: it is a bijection with
      the primitive record, so `totalAmount` is stored as given and never
      derived from `baseFee + taxFee`. */
  lemma PrimitiveRoundTrip(p: PrimitiveTransaction, t: Transaction)
    ensures Transaction.FromPrimitive(p).ToPrimitive() == p
    ensures Transaction.FromPrimitive(t.ToPrimitive()) == t
    ensures Transaction.FromPrimitive(p).totalAmount == p.totalAmount
  {
  }
}
